=== FILE: README.md ===
# ByteTech telemetry core, modelled in Dafny

ByteTech collects readings from ESP32 air-quality sensors. Each reading has a carbon level, methane, temperature, humidity and heat index. The backend stores every reading and raises alerts from threshold rules. It keeps weekly temperature and carbon reports, and predicts a barangay's carbon level for the coming week from a weather forecast. A React Native client shows the reports as coloured sums and colours map markers by temperature.

This project models that core as pure functions over immutable data:

- **Storage.** The MySQL tables become sequences in `Schema.Db`. A row's AUTO_INCREMENT id is its position plus one.
- **Request values.** Body, query and route values are JavaScript values (`Js.Value`). Truthiness, `||`, the numeric conversion behind `>=` and `<`, `toUpperCase`, `parseFloat` and `String.prototype.replace` are written out explicitly.
- **Queries.** `WHERE`, `ORDER BY … DESC` and `SELECT DISTINCT` are the generic sequence operations in `Sequences`.
- **Nondeterminism.** The clock, the weather service and failing database writes become parameters:
  - `now` is the time the database stamps on a reading;
  - `reply` is the weather service's answer;
  - `fault`, `fails` and `failing` pick which writes fail.

| module | file | models |
|---|---|---|
| `Options`, `Js` | options.dfy, js.dfy | JavaScript values and operators |
| `Sequences` | sequences.dfy | filter, stable descending sort, distinct |
| `Schema` | schema.dfy | rows, the database, SQL `=` |
| `SensorData` | sensor_data.dfy | `postSensorData`, `getLatestSensorData`, `getSensorData` |
| `Alerts` | alerts.dfy | `createAlert`, `processSensorData` |
| `Weather` | weather.dfy | `getWeeklyPrediction` |
| `WeeklyReports` | weekly_reports.dfy | list, by-scope and weeks queries of both report families |
| `TemperatureReports`, `CarbonReports` | temperature_reports.dfy, carbon_reports.dfy | the two create handlers |
| `EmissionReport` | emission_report.dfy | the reports screen's sums, highest emitter and filter |
| `MapMarker` | map_marker.dfy | `getMarkerColor` |

## Behaviour worth knowing

- **Inline alerts.** `postSensorData` raises only two kinds of alert.
  - A "Carbon Level" alert for `HIGH` or `VERY HIGH`. The level text has a space, not an underscore.
  - A "High Temperature" alert at `HIGH` for any temperature of 35 or more. There is no VERY HIGH temperature branch.
  - It has no methane rule.
  - So a reading with carbon "high", 36 °C and 250 ppm of methane gets two alerts, carbon then temperature, and none for methane. `SensorData.HighCarbonHotReadingScenario` proves this.
- **The standalone evaluator.** The methane and heat-index bands exist only in `processSensorData`. That function also alerts on every truthy carbon level except `LOW`, including `NORMAL`.
- **A zero carbon total.** A carbon report with `total_co2_tons` of 0 is refused, while a temperature report with an average of 0 is stored.

## Model

| member | source | states |
|---|---|---|
| SensorData.NormalisedLevel | controllers/sensorDataController.js:20-23 | a truthy string level is upper-cased and keeps its truthiness; a falsy level is left as it is |
| SensorData.InlineAlerts | controllers/sensorDataController.js:63-78 | a Carbon Level alert exists iff the normalised level is exactly HIGH or VERY HIGH, and then it carries value null and that level; a High Temperature alert exists iff temperature_c >= 35, always at level HIGH with the temperature as value; both point at the new reading and sensor, carbon first, at most two |
| SensorData.Ingest | controllers/sensorDataController.js:6-92 | no response iff a truthy non-string carbon level makes toUpperCase throw; 400 iff sensor_id is falsy or mq2_analog, temperature_c or humidity is absent; in both of those cases nothing is written; at most one reading is appended, and exactly one iff the request passes and the reading insert succeeds, otherwise nothing changes; 201 iff the request passes and no insert fails; the stored row has the next id, the clock's time, the upper-cased level or NORMAL and the given required fields; tables only grow; 201 with the id exactly when all inline alerts were appended, 500 otherwise; report tables untouched |
| SensorData.IngestKeepsConsistent | controllers/sensorDataController.js:33-78 | whatever write fails, ids stay in insertion order and every alert points at a stored reading |
| SensorData.IngestOptionalColumns | controllers/sensorDataController.js:47-58 | methane_ppm, co2_density, temperature_f, heat_index_c and heat_index_f are stored as given when truthy and as null otherwise, so 0 becomes null |
| SensorData.AlertFailureKeepsReading | controllers/sensorDataController.js:63-91 | when the k-th alert insert fails, the reading and the alerts before it stay stored and the answer is 500 |
| SensorData.ZeroMeasurementsAccepted | controllers/sensorDataController.js:25-30 | a reading of 0 for mq2_analog, temperature_c and humidity is accepted with 201 |
| SensorData.InlineTemperatureIsAlwaysHigh | controllers/sensorDataController.js:72-78 | at 42 °C the only inline alert for a NORMAL level is one High Temperature alert at HIGH |
| SensorData.HighCarbonHotReadingScenario | controllers/sensorDataController.js:20-78 | the reading (carbon "high", 36 °C, methane 250) is stored with level HIGH and null optional columns, followed by exactly two alerts: Carbon Level HIGH, then High Temperature HIGH |
| SensorData.ReadingsOf | controllers/sensorDataController.js:124-141 | exactly the stored readings whose sensor_id equals the parameter under `Schema.SqlEquals` (MySQL's `=`), no reading more often than it is stored, newest recorded_at first |
| SensorData.LatestReading | controllers/sensorDataController.js:97-119 | 404 iff the sensor has no reading; otherwise a reading of that sensor with the greatest recorded_at, the head of the full list |
| Sequences.Filter | controllers/sensorDataController.js:128-133 | the result holds exactly the elements satisfying the condition, no more often than the input |
| Sequences.FilterConcat | Frontend/reports.js:76-79 | filtering two parts and joining them is filtering the joined list, so the original order is kept |
| Sequences.SortDesc | controllers/sensorDataController.js:128-133 | the rows come back as a permutation of the input, ordered by descending key |
| Sequences.Distinct | controllers/weeklyTemperatureReportsController.js:118-122 | every value of the input appears exactly once and nothing else appears |
| Alerts.BandOf | controllers/alertsController.js:37-47 | HIGH iff the value is at least the lower bound and below the upper one; VERY HIGH iff it is at least the upper bound; NaN is in no band |
| Alerts.BandAlert | controllers/alertsController.js:37-47 | one alert with the band's level iff the value is in a band |
| Alerts.PlannedAlerts | controllers/alertsController.js:30-48 | at most three alerts, one per rule, in rule order (carbon, heat index, methane), all for the given reading and sensor, never a High Temperature alert, and no column left undefined (an undefined sensor_id or co2_density is written as NULL) |
| Alerts.CarbonRule | controllers/alertsController.js:33-35 | one Carbon Level alert carrying co2_density (NULL when undefined, as mysql2 binds it) and the level as given, exactly when the level is truthy and not LOW |
| Alerts.HeatIndexRule | controllers/alertsController.js:37-41 | heat index in [35,40) gives one HIGH alert, 40 or more one VERY HIGH alert, below 35 or NaN none |
| Alerts.MethaneRule | controllers/alertsController.js:43-47 | methane in [100,200) gives one HIGH alert, 200 or more one VERY HIGH alert, otherwise none |
| Alerts.MethaneBoundaries | controllers/alertsController.js:43-47 | 99 ppm raises nothing, 100 and 199 raise HIGH, 200 raises VERY HIGH |
| Alerts.HeatIndexFortyTwo | controllers/alertsController.js:37-41 | a heat index of 42 raises exactly one Heat Index alert, at VERY HIGH |
| Alerts.CreateAlert | controllers/alertsController.js:12-23 | a successful insert appends the alert; a failed one leaves every table as it was |
| Alerts.DeliveredKeepsSuccesses | controllers/alertsController.js:12-23 | every attempted alert whose own insert succeeds is stored, even after an earlier failure |
| Alerts.DeliveredOnlyPlanned | controllers/alertsController.js:30-48 | nothing but attempted alerts is stored |
| Alerts.DeliveredAllWithoutFailures | controllers/alertsController.js:30-48 | with no failing insert, all attempted alerts are stored in order |
| Alerts.DeliveredExactly | controllers/alertsController.js:12-23 | an alert is stored iff some attempt that wrote it succeeded; a failed attempt stores nothing |
| Alerts.DeliveredCount | controllers/alertsController.js:12-23 | exactly one alert is stored per successful attempt |
| Alerts.FailedAttemptNotStored | controllers/alertsController.js:30-48 | the rule alerts of one reading are pairwise different, so the alert of a failed attempt is absent from the table |
| Alerts.WriteAlerts | controllers/alertsController.js:30-48 | inserting the attempts one after another appends exactly the delivered ones and leaves readings and reports unchanged |
| Alerts.ProcessSensorData | controllers/alertsController.js:30-48 | the alerts table grows by the delivered alerts of this reading's rules; nothing else changes |
| Alerts.ProcessKeepsConsistent | controllers/alertsController.js:30-48 | evaluating a stored reading keeps every alert pointing at a stored reading |
| Weather.PredictDay | controllers/weatherController.js:58-63 | a day is never UNKNOWN, and is NORMAL whenever one of its three inputs is null |
| Weather.PredictDayRules | controllers/weatherController.js:59-63 | VERY HIGH, HIGH and LOW are each reached exactly when their own rule matches and no earlier rule does |
| Weather.PredictDayMonotone | controllers/weatherController.js:60-62 | a hotter, drier and calmer day never gets a lower level (LOW < NORMAL < HIGH < VERY HIGH) |
| Weather.FirstMatchWins | controllers/weatherController.js:60-62 | a day matching both the HIGH and the LOW rule (36 °C, 10 % rain, wind 7) is HIGH |
| Weather.Forecast | controllers/weatherController.js:47-89 | with usable daily data, one day per date with that index's values (null where missing) and its rule-table level; otherwise seven days from today with null values and UNKNOWN |
| Weather.UnknownOnlyInPlaceholder | controllers/weatherController.js:50-89 | a forecast day is UNKNOWN iff the weather reply was unusable |
| Weather.WeeklyPrediction | controllers/weatherController.js:7-96 | 404 iff no barangay row matches the id; otherwise the id, a matching barangay's name, the forecast for the reply and forecast_days equal to its length |
| Weather.NotFoundIgnoresService | controllers/weatherController.js:12-21 | whether the answer is 404 does not depend on the weather service |
| Weather.FailedRequestGivesPlaceholder | controllers/weatherController.js:34-89 | a failed weather request for a known barangay gives seven days, 0 to 6 days from today, each UNKNOWN with null temp_max, temp_min, rain_probability and wind_speed |
| WeeklyReports.AllReports | controllers/weeklyTemperatureReportsController.js:6-21 | every report of the table, each as often as stored, by descending week_start; the carbon handler at controllers/weeklyCarbonReportsController.js:6-21 is the same query |
| WeeklyReports.ReportsByScope | controllers/weeklyTemperatureReportsController.js:28-56 | 400 iff scope is falsy; otherwise exactly the rows whose scope equals the parameter under `Schema.SqlEquals` and, when scope_id is truthy, whose scope_id equals it, by descending week_start; the carbon handler at controllers/weeklyCarbonReportsController.js:27-55 is the same |
| WeeklyReports.NullScopeRowsOnlyUnfiltered | controllers/weeklyTemperatureReportsController.js:41-46 | a row stored with a null scope_id is listed iff the request's scope_id is falsy |
| WeeklyReports.ReportWeeks | controllers/weeklyTemperatureReportsController.js:116-131 | each (week_start, week_end) pair of some report exactly once, nothing else, by descending week_start; the carbon handler at controllers/weeklyCarbonReportsController.js:112-127 is the same |
| WeeklyReports.WeeksAreDistinct | controllers/weeklyTemperatureReportsController.js:118-122 | no week is listed twice |
| WeeklyReports.AppendReport | controllers/weeklyTemperatureReportsController.js:80-99 | the table keeps its rows and gains one at the end, with ids still numbered 1, 2, 3, … |
| WeeklyReports.AppendedRowIsListed | controllers/weeklyTemperatureReportsController.js:28-56 | a row appended with a given scope and scope_id is found by the by-scope query with the same parameters, and its week is listed |
| TemperatureReports.CreateTemperatureReport | controllers/weeklyTemperatureReportsController.js:62-111 | 400 iff scope is falsy, a week bound is missing or avg_temperature_c is undefined; 500 iff the insert fails; otherwise one row is appended at the end with the next id, the given scope, scope_id or null when falsy, week bounds and metrics, with an undefined min, max or change column stored as NULL; every other table is unchanged, and nothing changes unless the answer is 201 |
| TemperatureReports.CreateKeepsConsistent | controllers/weeklyTemperatureReportsController.js:80-99 | ids stay in insertion order after a create |
| TemperatureReports.CreatedReportIsListed | controllers/weeklyTemperatureReportsController.js:81-99 | the created report is listed by the by-scope query with its own scope and scope_id, and its week by the weeks query |
| TemperatureReports.AverageNeedOnlyBePresent | controllers/weeklyTemperatureReportsController.js:74-78 | with scope and week bounds given, the report is created iff avg_temperature_c is not undefined (0 and null are stored) |
| CarbonReports.CreateCarbonReport | controllers/weeklyCarbonReportsController.js:61-107 | 400 iff scope is falsy, a week bound is missing or total_co2_tons is falsy; 500 iff the insert fails; otherwise one row is appended at the end with the next id, scope_id or null when falsy, a truthy total, and an undefined average or change column stored as NULL; other tables unchanged |
| CarbonReports.CreateKeepsConsistent | controllers/weeklyCarbonReportsController.js:78-95 | ids stay in insertion order after a create |
| CarbonReports.CreatedReportIsListed | controllers/weeklyCarbonReportsController.js:79-95 | the created report is listed by the by-scope query with its own scope and scope_id, and its week by the weeks query |
| TemperatureReports.OmittedColumnsStoredAsNull | controllers/weeklyTemperatureReportsController.js:81-99 | a report sent with only scope, week bounds and average is stored with NULL scope_id, min, max and change |
| CarbonReports.OmittedColumnsStoredAsNull | controllers/weeklyCarbonReportsController.js:78-95 | a report sent with only scope, week bounds and total is stored with NULL scope_id, average and change |
| CarbonReports.ZeroRefusedOnlyForCarbon | controllers/weeklyCarbonReportsController.js:72-76 | a zero total_co2_tons is refused with 400, while the temperature family stores a zero average |
| EmissionReport.BandsPartition | Frontend/reports.js:40-48 | every numeric or null emission is in exactly one of red (>50), yellow (20,50] and green (<=20); a missing one is in none |
| EmissionReport.BandsAddUpToTotal | Frontend/reports.js:40-74 | the red, yellow and green sums of `Stats` add up to `TotalEmission`, the reduce over all entries |
| EmissionReport.HighestIsFirstMaximum | Frontend/reports.js:51-56 | `Highest`, the reduce that yields highestEmission, is null iff no entry emits more than 0; otherwise it is the first entry with the greatest emission |
| EmissionReport.Visible | Frontend/reports.js:76-79 | ALL shows the whole list; CARBON shows exactly the entries emitting more than 0 |
| EmissionReport.CarbonViewKeepsOrder | Frontend/reports.js:76-79 | the CARBON view keeps the list order |
| EmissionReport.CarbonViewOfEmitters | Frontend/reports.js:76-79 | when every entry emits, the CARBON view is the whole list |
| MapMarker.MarkerColor | Frontend/Map.js:68-74 | green for a falsy value; otherwise, with `MarkerTemperature` as the parsed temperature, red iff the parsed temperature is at least 35, orange iff it is in [32,35), and green for anything below or unparsable |
| MapMarker.MarkerColorMonotone | Frontend/Map.js:71-73 | a hotter temperature never gets a less alarming colour |
| MapMarker.StripDegrees | Frontend/Map.js:70 | digits followed by °C lose exactly the °C |
| MapMarker.DigitsWithDegrees | Frontend/Map.js:70 | a digit string followed by °C gives the `MarkerTemperature` that `Js.ParseFloat` reads from the digits alone |
| MapMarker.DegreeTextIsParsed | Frontend/Map.js:70 | a label such as "34°C" is read as the number 34 |
| MapMarker.LabelledReadings | Frontend/Map.js:68-74 | "36°C" is red, "33°C" orange, "30°C" green |
| Js.ToUpper | controllers/sensorDataController.js:22 | upper-casing keeps the length and maps each character on its own |
| Js.RemoveFirstAt | Frontend/Map.js:70 | replace with a string pattern removes the first occurrence only and keeps everything around it |
| Js.RemoveFirstAbsent | Frontend/Map.js:70 | replace leaves a string without an occurrence unchanged |

## Left out

- Read handlers' 500 answers: the list, by-scope, weeks and sensor-reading queries are total functions here, and a failing query is not modelled. The same holds for `getWeeklyPrediction`: `Weather.WeeklyPrediction` has no outcome for a failing barangay query, which the handler answers with 500.
- MySQL type coercion is reduced to `Schema.SqlEquals`:
  - NULL never matches;
  - two strings compare exactly, so case-insensitive collation is left out;
  - otherwise both sides compare as numbers, with a string converted by JavaScript's whole-string rule. MySQL converts a string by its leading numeric prefix, so `sensor_id = '1abc'` matches sensor 1 in MySQL but nothing in the model.
- Number parsing (`Js.ParseFloat`, `Js.StringToNumber`) reads an optional sign, digits, and an optional fraction. Exponents, `Infinity`, hexadecimal literals and Unicode white space beyond space, tab, CR and LF are not modelled. `Js.Value` numbers are finite reals: `JSON.parse` never yields NaN, and a number literal beyond the double range (`1e400` parses to `Infinity`, which passes `temperature_c >= 35` and `heat_index_c >= 40`) is not modelled.
- Request values (`Js.Value`) are JSON primitives: undefined, null, booleans, numbers and strings. Arrays and objects, which `bodyParser.json()` yields for a body such as `temperature_c: [40]` and the query parser for `scope[]=a`, are not modelled.
- `SensorData.Response.Unanswered` follows Express 4: a handler's rejected promise is not caught, so no response is written. Express 5 answers such a request with 500, and Node 15 or later may end the process on the unhandled rejection; neither is modelled.
- `Js.ToUpper` upper-cases ASCII letters only. Non-ASCII case mapping is not modelled.
- DATE columns and request dates are day numbers (`WeeklyReports.DateField`). Date parsing, time zones and the placeholder's ISO date text (`Weather.DayLabel.DaysFromToday`) are not modelled.
- The weather request (URL building, axios, the network) is the `reply` parameter. The prediction uses the `barangay_id` route parameter as given, with no conversion.
- Which write fails is a parameter:
  - `fault` for `SensorData.Ingest`;
  - `fails` for the report creates and `Alerts.CreateAlert`;
  - `failing` for `Alerts.ProcessSensorData`.
  The reason a write fails is not modelled.
- `console` logging, HTTP status texts and message bodies are left out. The responses keep only the status and the returned id or rows.
- EmissionReport:
  - emissions are numbers, null or missing. A string `co2_emission` (`+` would concatenate) is not modelled.
  - sums use exact real arithmetic, not floating point.
  - a `data` that is not an array (the `catch` path) is not modelled.
- MapMarker.MarkerTemperature: a number `t` is taken as its own value instead of going through `String(t)` and `parseFloat`. The two agree for numbers printed without an exponent.
- The React components, state hooks, layout and fetch calls of the two screens are not modelled, nor is concurrency between requests.
- `getAllSensorData` and the other controllers (sensors, establishments, barangays, calendar) are not part of this model.

=== FILE: alerts.dfy ===
/**
  The standalone alert evaluator: `processSensorData` runs its own rule set
  (carbon level, heat-index bands, methane bands) and writes each alert
  through `createAlert`, which logs and swallows a failed insert.
 */
module Alerts {
  import opened Js
  import opened Schema

  predicate CarbonRuleFires(d: SensorPayload) {
    Truthy(d.carbonLevel) && d.carbonLevel != Str("LOW")
  }

  /** Severity of a value in the bands [high, veryHigh) and [veryHigh, ∞),
      evaluated as `v >= high && v < veryHigh` then `else if v >= veryHigh`. */
  datatype Band = NoBand | HighBand | VeryHighBand

  function BandOf(v: Value, high: real, veryHigh: real): (b: Band)
    ensures b == HighBand <==> AtLeast(v, high) && Below(v, veryHigh)
    ensures b == VeryHighBand <==> AtLeast(v, veryHigh) && !(AtLeast(v, high) && Below(v, veryHigh))
  {
    if AtLeast(v, high) && Below(v, veryHigh) then HighBand
    else if AtLeast(v, veryHigh) then VeryHighBand
    else NoBand
  }

  /** The level text an alert in a band carries. */
  function BandLevel(b: Band): Value {
    if b == VeryHighBand then Str("VERY HIGH") else Str("HIGH")
  }

  function BandAlert(b: Band, kind: AlertKind, v: Value, d: SensorPayload, dataId: nat): (r: seq<Alert>)
    ensures |r| <= 1
    ensures forall a :: a in r ==> a == Alert(dataId, Bound(d.sensorId), kind, v, BandLevel(b))
    ensures |r| == 1 <==> b != NoBand
  {
    if b == NoBand then [] else [Alert(dataId, Bound(d.sensorId), kind, v, BandLevel(b))]
  }

  /** The alerts `processSensorData` attempts for `d`, in the order it
      attempts them: at most one per rule, carbon, then heat index, then
      methane. */
  function PlannedAlerts(d: SensorPayload, dataId: nat): (r: seq<Alert>)
    ensures |r| <= 3
    ensures forall a :: a in r ==> a.dataId == dataId && a.sensorId == Bound(d.sensorId)
    ensures forall i, j :: 0 <= i < j < |r| ==> r[i].kind.Rank() < r[j].kind.Rank()
    ensures forall a :: a in r ==> a.kind != HighTemperature
    ensures forall a :: a in r ==> a.sensorId != Undefined && a.value != Undefined && a.level != Undefined
  {
    CarbonPart(d, dataId) + HeatIndexPart(d, dataId) + MethanePart(d, dataId)
  }

  function CarbonPart(d: SensorPayload, dataId: nat): seq<Alert> {
    if CarbonRuleFires(d) then [Alert(dataId, Bound(d.sensorId), CarbonLevel, Bound(d.co2Density), d.carbonLevel)] else []
  }

  function HeatIndexPart(d: SensorPayload, dataId: nat): seq<Alert> {
    BandAlert(BandOf(d.heatIndexC, 35.0, 40.0), HeatIndex, d.heatIndexC, d, dataId)
  }

  function MethanePart(d: SensorPayload, dataId: nat): seq<Alert> {
    BandAlert(BandOf(d.methanePpm, 100.0, 200.0), Methane, d.methanePpm, d, dataId)
  }

  /** The alerts of one kind among `r`. */
  function OfKind(r: seq<Alert>, k: AlertKind): seq<Alert> {
    if |r| == 0 then [] else (if r[0].kind == k then [r[0]] else []) + OfKind(r[1..], k)
  }

  lemma {:induction false} OfKindConcat(a: seq<Alert>, b: seq<Alert>, k: AlertKind)
    ensures OfKind(a + b, k) == OfKind(a, k) + OfKind(b, k)
  {
    if |a| > 0 {
      assert (a + b)[1..] == a[1..] + b;
      OfKindConcat(a[1..], b, k);
    } else {
      assert a + b == b;
    }
  }

  /** The alerts of one kind that `PlannedAlerts` yields are those of the
      rule for that kind. */
  lemma PlannedOfKind(d: SensorPayload, dataId: nat, k: AlertKind)
    ensures OfKind(PlannedAlerts(d, dataId), k)
         == OfKind(CarbonPart(d, dataId), k) + OfKind(HeatIndexPart(d, dataId), k) + OfKind(MethanePart(d, dataId), k)
  {
    var c, h, m := CarbonPart(d, dataId), HeatIndexPart(d, dataId), MethanePart(d, dataId);
    OfKindConcat(c + h, m, k);
    OfKindConcat(c, h, k);
  }

  /** Carbon rule: one "Carbon Level" alert exactly when the level is truthy
      and not 'LOW' (so NORMAL and a lower-case 'low' alert too), carrying
      `co2_density` (NULL when undefined) and the level as given. */
  lemma CarbonRule(d: SensorPayload, dataId: nat)
    ensures CarbonRuleFires(d) ==>
              OfKind(PlannedAlerts(d, dataId), CarbonLevel) == [Alert(dataId, Bound(d.sensorId), CarbonLevel, Bound(d.co2Density), d.carbonLevel)]
    ensures !CarbonRuleFires(d) ==> OfKind(PlannedAlerts(d, dataId), CarbonLevel) == []
  {
    PlannedOfKind(d, dataId, CarbonLevel);
  }

  /** Heat-index rule: [35, 40) gives one HIGH alert, 40 and above one
      VERY HIGH alert, anything else (NaN included) none; never two. */
  lemma HeatIndexRule(d: SensorPayload, dataId: nat)
    ensures AtLeast(d.heatIndexC, 35.0) && Below(d.heatIndexC, 40.0) ==>
              OfKind(PlannedAlerts(d, dataId), HeatIndex) == [Alert(dataId, Bound(d.sensorId), HeatIndex, d.heatIndexC, Str("HIGH"))]
    ensures AtLeast(d.heatIndexC, 40.0) ==>
              OfKind(PlannedAlerts(d, dataId), HeatIndex) == [Alert(dataId, Bound(d.sensorId), HeatIndex, d.heatIndexC, Str("VERY HIGH"))]
    ensures !AtLeast(d.heatIndexC, 35.0) ==> OfKind(PlannedAlerts(d, dataId), HeatIndex) == []
  {
    PlannedOfKind(d, dataId, HeatIndex);
  }

  /** Methane rule: [100, 200) gives one HIGH alert, 200 and above one
      VERY HIGH alert, anything else none; never two. */
  lemma MethaneRule(d: SensorPayload, dataId: nat)
    ensures AtLeast(d.methanePpm, 100.0) && Below(d.methanePpm, 200.0) ==>
              OfKind(PlannedAlerts(d, dataId), Methane) == [Alert(dataId, Bound(d.sensorId), Methane, d.methanePpm, Str("HIGH"))]
    ensures AtLeast(d.methanePpm, 200.0) ==>
              OfKind(PlannedAlerts(d, dataId), Methane) == [Alert(dataId, Bound(d.sensorId), Methane, d.methanePpm, Str("VERY HIGH"))]
    ensures !AtLeast(d.methanePpm, 100.0) ==> OfKind(PlannedAlerts(d, dataId), Methane) == []
  {
    PlannedOfKind(d, dataId, Methane);
  }

  /** `createAlert`: a failed insert leaves the table as it was and is not
      reported to the caller. */
  function CreateAlert(db: Db, a: Alert, fails: bool): (db': Db)
    ensures db'.readings == db.readings
    ensures db'.temperatureReports == db.temperatureReports && db'.carbonReports == db.carbonReports
    ensures fails ==> db'.alerts == db.alerts
    ensures !fails ==> db'.alerts == db.alerts + [a]
  {
    if fails then db else db.(alerts := db.alerts + [a])
  }

  /** The attempted alerts whose insert succeeds, in attempt order, when the
      attempts numbered in `failing` fail. */
  function Delivered(planned: seq<Alert>, failing: set<nat>): (r: seq<Alert>)
    ensures |r| <= |planned|
  {
    if |planned| == 0 then []
    else
      var last := |planned| - 1;
      Delivered(planned[..last], failing) + (if last in failing then [] else [planned[last]])
  }

  /** Every attempt outside `failing` is delivered: a failed insert does not
      stop the attempts after it. */
  lemma {:induction false} DeliveredKeepsSuccesses(planned: seq<Alert>, failing: set<nat>, i: nat)
    requires i < |planned| && i !in failing
    ensures planned[i] in Delivered(planned, failing)
  {
    var last := |planned| - 1;
    if i < last {
      DeliveredKeepsSuccesses(planned[..last], failing, i);
    }
  }

  /** Only attempted alerts are delivered. */
  lemma {:induction false} DeliveredOnlyPlanned(planned: seq<Alert>, failing: set<nat>)
    ensures forall a :: a in Delivered(planned, failing) ==> a in planned
  {
    if |planned| > 0 {
      var last := |planned| - 1;
      DeliveredOnlyPlanned(planned[..last], failing);
      assert forall a :: a in planned[..last] ==> a in planned;
    }
  }

  /** With no failure every attempted alert is delivered. */
  lemma {:induction false} DeliveredAllWithoutFailures(planned: seq<Alert>)
    ensures Delivered(planned, {}) == planned
  {
    if |planned| > 0 {
      DeliveredAllWithoutFailures(planned[..|planned| - 1]);
      assert planned == planned[..|planned| - 1] + [planned[|planned| - 1]];
    }
  }

  /** What is stored is exactly what some non-failing attempt wrote: a failed
      attempt stores nothing, and a successful one stores its alert. */
  lemma {:induction false} DeliveredExactly(planned: seq<Alert>, failing: set<nat>)
    ensures forall a :: a in Delivered(planned, failing) <==>
                          exists i :: 0 <= i < |planned| && i !in failing && planned[i] == a
  {
    if |planned| > 0 {
      var last := |planned| - 1;
      var init := planned[..last];
      DeliveredExactly(init, failing);
      forall a
        ensures a in Delivered(planned, failing) <==> exists i :: 0 <= i < |planned| && i !in failing && planned[i] == a
      {
        if exists i :: 0 <= i < |planned| && i !in failing && planned[i] == a {
          var i :| 0 <= i < |planned| && i !in failing && planned[i] == a;
          if i < last {
            assert init[i] == a;
          }
        }
        if a in Delivered(init, failing) {
          var i :| 0 <= i < |init| && i !in failing && init[i] == a;
          assert planned[i] == a;
        }
      }
    }
  }

  /** The attempts that succeed. */
  ghost function Successes(n: nat, failing: set<nat>): set<nat> {
    set i | 0 <= i < n && i !in failing
  }

  /** One alert is stored per successful attempt, and none per failed one. */
  lemma {:induction false} DeliveredCount(planned: seq<Alert>, failing: set<nat>)
    ensures |Delivered(planned, failing)| == |Successes(|planned|, failing)|
  {
    if |planned| > 0 {
      var last := |planned| - 1;
      DeliveredCount(planned[..last], failing);
      var before := Successes(last, failing);
      if last in failing {
        assert Successes(|planned|, failing) == before;
      } else {
        assert Successes(|planned|, failing) == before + {last};
        assert last !in before;
      }
    } else {
      assert Successes(0, failing) == {};
    }
  }

  /** The alerts `processSensorData` attempts are pairwise different, so an
      attempt whose insert fails leaves its alert out of the table. */
  lemma FailedAttemptNotStored(d: SensorPayload, dataId: nat, failing: set<nat>, i: nat)
    requires i < |PlannedAlerts(d, dataId)| && i in failing
    ensures PlannedAlerts(d, dataId)[i] !in Delivered(PlannedAlerts(d, dataId), failing)
  {
    var planned := PlannedAlerts(d, dataId);
    assert forall j :: 0 <= j < |planned| && j != i ==> planned[j].kind.Rank() != planned[i].kind.Rank();
    DeliveredExactly(planned, failing);
  }

  /** Writes `planned` one alert at a time through `createAlert`; the
      attempts numbered in `failing` fail and the loop carries on. */
  method WriteAlerts(db: Db, planned: seq<Alert>, failing: set<nat>) returns (db': Db)
    ensures db'.readings == db.readings
    ensures db'.temperatureReports == db.temperatureReports && db'.carbonReports == db.carbonReports
    ensures db'.alerts == db.alerts + Delivered(planned, failing)
  {
    db' := db;
    var i := 0;
    while i < |planned|
      invariant 0 <= i <= |planned|
      invariant db'.readings == db.readings
      invariant db'.temperatureReports == db.temperatureReports && db'.carbonReports == db.carbonReports
      invariant db'.alerts == db.alerts + Delivered(planned[..i], failing)
    {
      assert planned[..i + 1][..i] == planned[..i];
      db' := CreateAlert(db', planned[i], i in failing);
      i := i + 1;
    }
    assert planned[..i] == planned;
  }

  /** `processSensorData(sensorData, data_id)`: the planned alerts are
      written in order and a failed insert never stops the later ones. */
  method ProcessSensorData(db: Db, d: SensorPayload, dataId: nat, failing: set<nat>) returns (db': Db)
    ensures db'.readings == db.readings
    ensures db'.temperatureReports == db.temperatureReports && db'.carbonReports == db.carbonReports
    ensures db'.alerts == db.alerts + Delivered(PlannedAlerts(d, dataId), failing)
  {
    db' := WriteAlerts(db, PlannedAlerts(d, dataId), failing);
  }

  /** Evaluating a reading that is already stored keeps the database
      consistent. */
  lemma ProcessKeepsConsistent(db: Db, d: SensorPayload, dataId: nat, failing: set<nat>)
    requires Consistent(db) && 1 <= dataId <= |db.readings|
    ensures forall a :: a in db.alerts + Delivered(PlannedAlerts(d, dataId), failing) ==> 1 <= a.dataId <= |db.readings|
  {
    DeliveredOnlyPlanned(PlannedAlerts(d, dataId), failing);
  }

  /** The methane bands at their edges: 99 raises nothing, 100 and 199 a
      HIGH alert, 200 a VERY HIGH one. */
  lemma MethaneBoundaries(d: SensorPayload, dataId: nat)
    requires !CarbonRuleFires(d) && d.heatIndexC == Undefined
    ensures d.methanePpm == Num(99.0) ==> PlannedAlerts(d, dataId) == []
    ensures d.methanePpm == Num(100.0) ==> PlannedAlerts(d, dataId) == [Alert(dataId, Bound(d.sensorId), Methane, Num(100.0), Str("HIGH"))]
    ensures d.methanePpm == Num(199.0) ==> PlannedAlerts(d, dataId) == [Alert(dataId, Bound(d.sensorId), Methane, Num(199.0), Str("HIGH"))]
    ensures d.methanePpm == Num(200.0) ==> PlannedAlerts(d, dataId) == [Alert(dataId, Bound(d.sensorId), Methane, Num(200.0), Str("VERY HIGH"))]
  {
  }

  /** A heat index of 42 raises exactly one alert of its kind, at VERY HIGH. */
  lemma HeatIndexFortyTwo(d: SensorPayload, dataId: nat)
    requires d.heatIndexC == Num(42.0)
    ensures |set a | a in PlannedAlerts(d, dataId) && a.kind == HeatIndex| == 1
    ensures forall a :: a in PlannedAlerts(d, dataId) && a.kind == HeatIndex ==> a.level == Str("VERY HIGH")
  {
    var r := PlannedAlerts(d, dataId);
    var h := Alert(dataId, Bound(d.sensorId), HeatIndex, Num(42.0), Str("VERY HIGH"));
    assert h in r;
    assert (set a | a in r && a.kind == HeatIndex) == {h};
  }
}

=== FILE: carbon_reports.dfy ===
/**
  `createWeeklyCarbonReport`: the carbon family's create handler. Its
  listing, by-scope and weeks handlers are the shared queries of
  `WeeklyReports` applied to `weekly_carbon_reports`.
 */
module CarbonReports {
  import opened Js
  import opened Schema
  import opened WeeklyReports
  import TemperatureReports

  /** The request body. `scope_id`, the average and the change are
      optional. */
  datatype CarbonBody = CarbonBody(
    scope: Value,
    scopeId: Value,
    weekStart: DateField,
    weekEnd: DateField,
    avgCo2Density: Value,
    totalCo2Tons: Value,
    changeVsLastWeek: Value)

  /** The 400 guard. Unlike the temperature family, the total must be
      truthy, so a week that emitted zero tons is refused. */
  predicate Incomplete(b: CarbonBody) {
    !Truthy(b.scope) || b.weekStart.NoDate? || b.weekEnd.NoDate? || !Truthy(b.totalCo2Tons)
  }

  /** The create handler; `fails` stands for the insert throwing. */
  function CreateCarbonReport(db: Db, b: CarbonBody, fails: bool): (h: CreateOutcome)
    ensures h.db.readings == db.readings && h.db.alerts == db.alerts && h.db.temperatureReports == db.temperatureReports
    ensures h.response.MissingFields? <==> Incomplete(b)
    ensures h.response.DatabaseError? <==> !Incomplete(b) && fails
    ensures !h.response.ReportCreated? ==> h.db == db
    ensures h.response.ReportCreated? ==>
              var t := h.db.carbonReports;
              && |t| == |db.carbonReports| + 1
              && t[..|db.carbonReports|] == db.carbonReports
              && h.response.reportId == |t|
              && t[|t| - 1].reportId == h.response.reportId
              && t[|t| - 1].scope == b.scope
              && (t[|t| - 1].scopeId == if Truthy(b.scopeId) then b.scopeId else Null)
              && t[|t| - 1].weekStart == b.weekStart.day
              && t[|t| - 1].weekEnd == b.weekEnd.day
              && t[|t| - 1].metrics == CarbonMetrics(Bound(b.avgCo2Density), b.totalCo2Tons, Bound(b.changeVsLastWeek))
              && Truthy(t[|t| - 1].metrics.totalCo2Tons)
  {
    if Incomplete(b) then CreateOutcome(db, MissingFields)
    else if fails then CreateOutcome(db, DatabaseError)
    else
      var m := CarbonMetrics(Bound(b.avgCo2Density), b.totalCo2Tons, Bound(b.changeVsLastWeek));
      var t := AppendReport(db.carbonReports, b.scope, ScopeIdParam(b.scopeId), b.weekStart.day, b.weekEnd.day, m);
      CreateOutcome(db.(carbonReports := t), ReportCreated(|t|))
  }

  /** A create request keeps the database consistent. */
  lemma CreateKeepsConsistent(db: Db, b: CarbonBody, fails: bool)
    requires Consistent(db)
    ensures Consistent(CreateCarbonReport(db, b, fails).db)
  {
  }

  /** A created report is found again by the by-scope query for the scope
      and scope id it was created with, and its week is listed. */
  lemma CreatedReportIsListed(db: Db, b: CarbonBody)
    requires CreateCarbonReport(db, b, false).response.ReportCreated?
    ensures var t := CreateCarbonReport(db, b, false).db.carbonReports;
      && t[|t| - 1] in ReportsByScope(t, b.scope, b.scopeId).rows
      && (b.weekStart.day, b.weekEnd.day) in ReportWeeks(t)
  {
    AppendedRowIsListed(db.carbonReports, b.scope, b.scopeId, b.weekStart.day, b.weekEnd.day, CarbonMetrics(Bound(b.avgCo2Density), b.totalCo2Tons, Bound(b.changeVsLastWeek)));
  }

  /** The optional columns a request leaves out are stored as NULL. */
  lemma OmittedColumnsStoredAsNull(db: Db, scope: Value, ws: int, we: int, total: Value)
    requires Truthy(scope) && Truthy(total)
    ensures var h := CreateCarbonReport(db, CarbonBody(scope, Undefined, Day(ws), Day(we), Undefined, total, Undefined), false);
      && h.response.ReportCreated?
      && h.db.carbonReports[|db.carbonReports|] == ReportRow(|db.carbonReports| + 1, scope, Null, ws, we, CarbonMetrics(Null, total, Null))
  {
  }

  /** The two families disagree on a zero: a temperature report with a zero
      average is stored, a carbon report with a zero total is refused. */
  lemma ZeroRefusedOnlyForCarbon(db: Db, scope: Value, scopeId: Value, ws: int, we: int)
    requires Truthy(scope)
    ensures CreateCarbonReport(db, CarbonBody(scope, scopeId, Day(ws), Day(we), Null, Num(0.0), Null), false).response == MissingFields
    ensures TemperatureReports.CreateTemperatureReport(
              db, TemperatureReports.TemperatureBody(scope, scopeId, Day(ws), Day(we), Num(0.0), Null, Null, Null), false).response
            == ReportCreated(|db.temperatureReports| + 1)
  {
  }
}

=== FILE: emission_report.dfy ===
/**
  The reports screen's arithmetic over the establishments it fetched: the
  red / yellow / green emission sums, the total, the highest emitter and
  the ALL / CARBON view.
 */
module EmissionReport {
  import opened Options
  import Sequences

  /** An establishment's `co2_emission`: a number, null, or not present. */
  datatype Emission = Missing | NullEmission | Tons(tons: real)

  datatype Establishment = Establishment(name: string, co2Emission: Emission)

  /** The number a relational comparison sees: null is 0, a missing value
      is NaN (None) and fails every comparison. */
  function Compared(e: Emission): Option<real> {
    match e
    case Missing => None
    case NullEmission => Some(0.0)
    case Tons(t) => Some(t)
  }

  /** What an emission adds to a running sum: `co2_emission || 0`, and also
      `sum + co2_emission` for the values the bands admit (null adds 0). */
  function Amount(e: Emission): real {
    match e
    case Tons(t) => t
    case _ => 0.0
  }

  /** `e.co2_emission > c` for a number `c`. */
  predicate Above(e: Emission, c: real) {
    Compared(e).Some? && Compared(e).value > c
  }

  // ---------------------------------------------------------------------
  // Bands
  // ---------------------------------------------------------------------

  predicate Red(e: Establishment) { Above(e.co2Emission, 50.0) }

  predicate Yellow(e: Establishment) {
    Above(e.co2Emission, 20.0) && Compared(e.co2Emission).value <= 50.0
  }

  predicate Green(e: Establishment) {
    Compared(e.co2Emission).Some? && Compared(e.co2Emission).value <= 20.0
  }

  /** Every comparable emission is in exactly one band; a missing one is in
      none. */
  lemma BandsPartition(e: Establishment)
    ensures Compared(e.co2Emission).Some? ==>
              (Red(e) && !Yellow(e) && !Green(e))
              || (!Red(e) && Yellow(e) && !Green(e))
              || (!Red(e) && !Yellow(e) && Green(e))
    ensures e.co2Emission.Missing? ==> !Red(e) && !Yellow(e) && !Green(e)
  {
  }

  /** `reduce((sum, e) => sum + …, 0)` over `s`, left to right. */
  function Sum(s: seq<Establishment>): real {
    if |s| == 0 then 0.0 else Sum(s[..|s| - 1]) + Amount(s[|s| - 1].co2Emission)
  }

  lemma {:induction false} SumConcat(a: seq<Establishment>, b: seq<Establishment>)
    ensures Sum(a + b) == Sum(a) + Sum(b)
    decreases |b|
  {
    if |b| == 0 {
      assert a + b == a;
    } else {
      assert (a + b)[..|a + b| - 1] == a + b[..|b| - 1];
      SumConcat(a, b[..|b| - 1]);
    }
  }

  /** The three band sums `setCarbonStats` receives. */
  datatype CarbonStats = CarbonStats(red: real, yellow: real, green: real)

  function Stats(data: seq<Establishment>): CarbonStats {
    CarbonStats(
      Sum(Sequences.Filter(data, Red)),
      Sum(Sequences.Filter(data, Yellow)),
      Sum(Sequences.Filter(data, Green)))
  }

  /** `totalEmission`: every entry counted, a missing or null emission as 0. */
  function TotalEmission(data: seq<Establishment>): real {
    Sum(data)
  }

  /** The pie chart's three slices make up the total: an entry outside every
      band contributes nothing to the total either. */
  lemma {:induction false} BandsAddUpToTotal(data: seq<Establishment>)
    ensures Stats(data).red + Stats(data).yellow + Stats(data).green == TotalEmission(data)
    decreases |data|
  {
    if |data| > 0 {
      var init, x := data[..|data| - 1], data[|data| - 1];
      assert data == init + [x];
      BandsAddUpToTotal(init);
      Sequences.FilterConcat(init, [x], Red);
      Sequences.FilterConcat(init, [x], Yellow);
      Sequences.FilterConcat(init, [x], Green);
      SumConcat(Sequences.Filter(init, Red), Sequences.Filter([x], Red));
      SumConcat(Sequences.Filter(init, Yellow), Sequences.Filter([x], Yellow));
      SumConcat(Sequences.Filter(init, Green), Sequences.Filter([x], Green));
      SumConcat(init, [x]);
      assert [x][1..] == [];
      BandsPartition(x);
    }
  }

  // ---------------------------------------------------------------------
  // The highest emitter
  // ---------------------------------------------------------------------

  /** One step of `reduce((prev, curr) => curr.co2_emission >
      (prev?.co2_emission || 0) ? curr : prev, null)`. */
  function HighestStep(prev: Option<Establishment>, curr: Establishment): Option<Establishment> {
    var bar := if prev.None? then 0.0 else Amount(prev.value.co2Emission);
    if Above(curr.co2Emission, bar) then Some(curr) else prev
  }

  function Highest(data: seq<Establishment>): Option<Establishment> {
    if |data| == 0 then None else HighestStep(Highest(data[..|data| - 1]), data[|data| - 1])
  }

  /** Entry `i` emits more than zero, at least as much as every entry, and
      more than every entry before it. */
  ghost predicate FirstMaximum(data: seq<Establishment>, i: int) {
    && 0 <= i < |data|
    && Amount(data[i].co2Emission) > 0.0
    && (forall j :: 0 <= j < |data| ==> Amount(data[j].co2Emission) <= Amount(data[i].co2Emission))
    && (forall j :: 0 <= j < i ==> Amount(data[j].co2Emission) < Amount(data[i].co2Emission))
  }

  /** `highestEmission` is the first entry of maximal emission, and null
      exactly when nothing emits more than zero. */
  lemma {:induction false} HighestIsFirstMaximum(data: seq<Establishment>)
    ensures Highest(data).None? <==> forall j :: 0 <= j < |data| ==> Amount(data[j].co2Emission) <= 0.0
    ensures Highest(data).Some? ==> exists i :: FirstMaximum(data, i) && data[i] == Highest(data).value
    decreases |data|
  {
    if |data| > 0 {
      var init, x := data[..|data| - 1], data[|data| - 1];
      HighestIsFirstMaximum(init);
      var prev := Highest(init);
      var bar := if prev.None? then 0.0 else Amount(prev.value.co2Emission);
      assert forall j :: 0 <= j < |init| ==> init[j] == data[j];
      if Above(x.co2Emission, bar) {
        assert FirstMaximum(data, |data| - 1);
      } else if prev.Some? {
        var i :| FirstMaximum(init, i) && init[i] == prev.value;
        assert FirstMaximum(data, i);
      }
    }
  }

  // ---------------------------------------------------------------------
  // The list filter
  // ---------------------------------------------------------------------

  datatype View = All | CarbonOnly

  predicate Emits(e: Establishment) { Above(e.co2Emission, 0.0) }

  /** `filteredData`: CARBON keeps the entries emitting more than zero. */
  function Visible(data: seq<Establishment>, view: View): (r: seq<Establishment>)
    ensures view == All ==> r == data
    ensures view == CarbonOnly ==> forall e :: e in r <==> e in data && Amount(e.co2Emission) > 0.0
  {
    if view == CarbonOnly then Sequences.Filter(data, Emits) else data
  }

  /** The CARBON view keeps the list order: filtering two parts and joining
      them is filtering the joined list. */
  lemma CarbonViewKeepsOrder(a: seq<Establishment>, b: seq<Establishment>)
    ensures Visible(a + b, CarbonOnly) == Visible(a, CarbonOnly) + Visible(b, CarbonOnly)
  {
    Sequences.FilterConcat(a, b, Emits);
  }

  /** When everything emits, the CARBON view is the whole list. */
  lemma CarbonViewOfEmitters(data: seq<Establishment>)
    requires forall i :: 0 <= i < |data| ==> Amount(data[i].co2Emission) > 0.0
    ensures Visible(data, CarbonOnly) == data
  {
    Sequences.FilterAll(data, Emits);
  }
}

=== FILE: js.dfy ===
/**
  JavaScript values as they reach the controllers in a JSON body, a query
  string or a route parameter, and the few JavaScript operators the
  controllers and screens apply to them: truthiness, `||`, the numeric
  conversion behind `>=`/`<`, `toUpperCase`, `parseFloat` and
  `String.prototype.replace` with a string pattern.
 */
module Js {
  import opened Options

  /** A JSON-representable primitive. `Undefined` is a field absent from the
      body. Numbers are finite reals: `JSON.parse` never yields NaN, and a
      literal beyond the double range (`1e400`, read as Infinity) is not
      modelled. */
  datatype Value = Undefined | Null | Bool(b: bool) | Num(n: real) | Str(s: string)

  /** Truthiness, as used by `if (v)`, `!v` and `v || d`. */
  predicate Truthy(v: Value) {
    match v
    case Undefined => false
    case Null => false
    case Bool(b) => b
    case Num(n) => n != 0.0
    case Str(s) => s != ""
  }

  /** `a || b`: the left operand when it is truthy, the right one otherwise. */
  function Or(a: Value, b: Value): Value {
    if Truthy(a) then a else b
  }

  // ---------------------------------------------------------------------
  // Characters and strings
  // ---------------------------------------------------------------------

  predicate IsDigit(c: char) { '0' <= c <= '9' }

  /** The white space JavaScript trims around a number (ASCII part only). */
  predicate IsSpace(c: char) { c == ' ' || c == '\t' || c == '\n' || c == '\r' }

  /** `toUpperCase` on the ASCII letters; every other character is kept. */
  function UpperChar(c: char): char {
    if 'a' <= c <= 'z' then (c as int - 32) as char else c
  }

  function ToUpper(s: string): (r: string)
    ensures |r| == |s|
    ensures forall i :: 0 <= i < |s| ==> r[i] == UpperChar(s[i])
  {
    if |s| == 0 then [] else [UpperChar(s[0])] + ToUpper(s[1..])
  }

  function TrimStart(s: string): (r: string)
    ensures |r| <= |s| && r == s[|s| - |r|..]
    ensures |r| > 0 ==> !IsSpace(r[0])
  {
    if |s| > 0 && IsSpace(s[0]) then TrimStart(s[1..]) else s
  }

  function TrimEnd(s: string): (r: string)
    ensures |r| <= |s| && r == s[..|r|]
    ensures |r| > 0 ==> !IsSpace(r[|r| - 1])
  {
    if |s| > 0 && IsSpace(s[|s| - 1]) then TrimEnd(s[..|s| - 1]) else s
  }

  // ---------------------------------------------------------------------
  // Decimal literals
  // ---------------------------------------------------------------------

  ghost predicate AllDigits(d: string) {
    forall i :: 0 <= i < |d| ==> IsDigit(d[i])
  }

  /** Length of the longest prefix of `s` made of decimal digits. */
  function DigitRun(s: string): (n: nat)
    ensures n <= |s|
    ensures AllDigits(s[..n])
    ensures n < |s| ==> !IsDigit(s[n])
  {
    if |s| == 0 || !IsDigit(s[0]) then 0
    else
      var n := 1 + DigitRun(s[1..]);
      assert s[..n] == [s[0]] + s[1..][..n - 1];
      n
  }

  /** The number a string of decimal digits denotes. */
  function DigitsValue(d: string): nat
    requires AllDigits(d)
  {
    if |d| == 0 then 0
    else DigitsValue(d[..|d| - 1]) * 10 + (d[|d| - 1] as int - '0' as int)
  }

  function Pow10(k: nat): (p: nat)
    ensures p >= 1
  {
    if k == 0 then 1 else 10 * Pow10(k - 1)
  }

  /** A decimal literal found at the start of a string: its value and how
      many characters it spans. */
  datatype Decimal = Decimal(value: real, length: nat)

  /** The longest unsigned decimal literal at the start of `s`: digits, and
      optionally a point followed by digits, with at least one digit in all. */
  function ScanUnsigned(s: string): (r: Option<Decimal>)
    ensures r.Some? ==> 0 < r.value.length <= |s|
  {
    var n := DigitRun(s);
    var whole := DigitsValue(s[..n]) as real;
    if n < |s| && s[n] == '.' then
      var tail := s[n + 1..];
      var m := DigitRun(tail);
      if n + m == 0 then None
      else Some(Decimal(whole + DigitsValue(tail[..m]) as real / Pow10(m) as real, n + 1 + m))
    else if n == 0 then None
    else Some(Decimal(whole, n))
  }

  /** The longest decimal literal at the start of `s`: an optional sign and
      an unsigned literal. `None` when `s` does not start with one. */
  function ScanDecimal(s: string): (r: Option<Decimal>)
    ensures r.Some? ==> 0 < r.value.length <= |s|
  {
    if |s| > 0 && (s[0] == '+' || s[0] == '-') then
      match ScanUnsigned(s[1..])
      case None => None
      case Some(d) => Some(Decimal(if s[0] == '-' then -d.value else d.value, d.length + 1))
    else ScanUnsigned(s)
  }

  /** `parseFloat(s)`: the decimal literal after leading white space, with
      anything following it ignored; `None` is NaN. */
  function ParseFloat(s: string): Option<real> {
    match ScanDecimal(TrimStart(s))
    case None => None
    case Some(d) => Some(d.value)
  }

  /** ToNumber on a string: white space around is ignored, the empty string
      is 0, and otherwise the whole rest must be one decimal literal. */
  function StringToNumber(s: string): Option<real> {
    var t := TrimEnd(TrimStart(s));
    if t == "" then Some(0.0)
    else match ScanDecimal(t)
      case Some(d) => if d.length == |t| then Some(d.value) else None
      case None => None
  }

  /** The abstract operation ToNumber; `None` stands for NaN. */
  function ToNumber(v: Value): Option<real> {
    match v
    case Undefined => None
    case Null => Some(0.0)
    case Bool(b) => Some(if b then 1.0 else 0.0)
    case Num(n) => Some(n)
    case Str(s) => StringToNumber(s)
  }

  /** `v >= c` for a number `c`: false whenever `v` converts to NaN. */
  predicate AtLeast(v: Value, c: real) {
    ToNumber(v).Some? && ToNumber(v).value >= c
  }

  /** `v < c` for a number `c`: false whenever `v` converts to NaN. */
  predicate Below(v: Value, c: real) {
    ToNumber(v).Some? && ToNumber(v).value < c
  }

  /** The decimal text of a natural number, as `String(n)` writes it. */
  function NatText(n: nat): string
  {
    var last := ['0' + ((n % 10) as char)];
    if n < 10 then last else NatText(n / 10) + last
  }

  lemma {:induction false} NatTextDigits(n: nat)
    ensures |NatText(n)| > 0
    ensures AllDigits(NatText(n))
    ensures DigitsValue(NatText(n)) == n
  {
    var last := ['0' + ((n % 10) as char)];
    if n >= 10 {
      NatTextDigits(n / 10);
      var t := NatText(n / 10) + last;
      assert t[..|t| - 1] == NatText(n / 10);
    }
  }

  lemma {:induction false} DigitRunOfDigits(d: string, rest: string)
    requires AllDigits(d)
    requires |rest| > 0 ==> !IsDigit(rest[0])
    ensures DigitRun(d + rest) == |d|
  {
    if |d| > 0 {
      assert (d + rest)[1..] == d[1..] + rest;
      DigitRunOfDigits(d[1..], rest);
    } else {
      assert d + rest == rest;
    }
  }

  /** A run of digits followed by neither a digit nor a point scans as the
      natural number it denotes. */
  lemma ScanDigits(d: string, rest: string)
    requires |d| > 0 && AllDigits(d)
    requires |rest| > 0 ==> !IsDigit(rest[0]) && rest[0] != '.'
    ensures ScanDecimal(d + rest) == Some(Decimal(DigitsValue(d) as real, |d|))
  {
    var s := d + rest;
    assert IsDigit(s[0]);
    DigitRunOfDigits(d, rest);
    assert s[..|d|] == d;
    assert ScanUnsigned(s) == Some(Decimal(DigitsValue(d) as real, |d|));
  }

  /** `parseFloat` reads back the text of a natural number, whatever
      non-numeric text follows it (such as a unit). */
  lemma ParseFloatNatText(n: nat, rest: string)
    requires |rest| > 0 ==> !IsDigit(rest[0]) && rest[0] != '.'
    ensures ParseFloat(NatText(n) + rest) == Some(n as real)
  {
    NatTextDigits(n);
    var t := NatText(n);
    assert !IsSpace((t + rest)[0]);
    assert TrimStart(t + rest) == t + rest;
    ScanDigits(t, rest);
  }

  // ---------------------------------------------------------------------
  // String.prototype.replace with a string pattern and an empty replacement
  // ---------------------------------------------------------------------

  /** Whether `pat` occurs in `s` starting at index `i`. */
  predicate OccursAt(s: string, pat: string, i: nat) {
    i + |pat| <= |s| && s[i..i + |pat|] == pat
  }

  /** `s.replace(pat, '')`: the first occurrence of `pat` is removed. */
  function RemoveFirst(s: string, pat: string): string
    decreases |s|
  {
    if |pat| == 0 || |s| < |pat| then s
    else if s[..|pat|] == pat then s[|pat|..]
    else [s[0]] + RemoveFirst(s[1..], pat)
  }

  /** An occurrence in the tail of `s` is an occurrence in `s`, one place on. */
  lemma OccursInTail(s: string, pat: string, i: nat)
    requires |s| > 0
    ensures OccursAt(s[1..], pat, i) <==> OccursAt(s, pat, i + 1)
  {
    if i + 1 + |pat| <= |s| {
      assert s[1..][i..i + |pat|] == s[i + 1..i + 1 + |pat|];
    }
  }

  /** Only the first occurrence is removed, and everything around it kept. */
  lemma {:induction false} RemoveFirstAt(s: string, pat: string, k: nat)
    requires |pat| > 0 && OccursAt(s, pat, k)
    requires forall i :: 0 <= i < k ==> !OccursAt(s, pat, i)
    ensures RemoveFirst(s, pat) == s[..k] + s[k + |pat|..]
  {
    if k == 0 {
      assert s[..|pat|] == pat;
    } else {
      assert !OccursAt(s, pat, 0);
      assert s[..|pat|] != pat by {
        assert s[0..|pat|] == s[..|pat|];
      }
      forall i | 0 <= i < k - 1
        ensures !OccursAt(s[1..], pat, i)
      {
        OccursInTail(s, pat, i);
      }
      OccursInTail(s, pat, k - 1);
      RemoveFirstAt(s[1..], pat, k - 1);
      assert s[..k] == [s[0]] + s[1..][..k - 1];
      assert s[1..][k - 1 + |pat|..] == s[k + |pat|..];
    }
  }

  /** Without an occurrence the string is returned unchanged. */
  lemma {:induction false} RemoveFirstAbsent(s: string, pat: string)
    requires forall i :: 0 <= i <= |s| ==> !OccursAt(s, pat, i)
    ensures RemoveFirst(s, pat) == s
  {
    if |pat| > 0 && |s| >= |pat| {
      assert !OccursAt(s, pat, 0);
      assert s[0..|pat|] == s[..|pat|];
      forall i | 0 <= i <= |s| - 1
        ensures !OccursAt(s[1..], pat, i)
      {
        OccursInTail(s, pat, i);
      }
      RemoveFirstAbsent(s[1..], pat);
      assert s == [s[0]] + s[1..];
    }
  }
}

=== FILE: map_marker.dfy ===
/**
  The map screen's marker colour for a barangay's temperature: green when
  there is no reading, otherwise by the thresholds 35 and 32 on the number
  `parseFloat` reads after the first `°C` is removed.
 */
module MapMarker {
  import opened Options
  import opened Js

  /** A marker colour, drawn as #D64545, #E8A75D and #6CAE75. */
  datatype Colour = Red | Orange | Green {
    /** How alarming the colour is: green < orange < red. */
    function Severity(): nat {
      match this
      case Green => 0
      case Orange => 1
      case Red => 2
    }
  }

  const DegreesCelsius: string := "\U{00B0}C"

  /** `parseFloat(String(t).replace('°C', ''))` for a truthy `t`; None is NaN.
      `true` prints as "true", which parses to NaN. */
  function MarkerTemperature(t: Value): Option<real> {
    match t
    case Num(n) => Some(n)
    case Str(s) => ParseFloat(RemoveFirst(s, DegreesCelsius))
    case _ => None
  }

  /** `getMarkerColor`. */
  function MarkerColor(t: Value): (c: Colour)
    ensures !Truthy(t) ==> c == Green
    ensures c == Red <==> Truthy(t) && MarkerTemperature(t).Some? && MarkerTemperature(t).value >= 35.0
    ensures c == Orange <==>
              Truthy(t) && MarkerTemperature(t).Some? && 32.0 <= MarkerTemperature(t).value < 35.0
    ensures Truthy(t) && MarkerTemperature(t).None? ==> c == Green
  {
    if !Truthy(t) then Green
    else
      var temp := MarkerTemperature(t);
      if temp.Some? && temp.value >= 35.0 then Red
      else if temp.Some? && temp.value >= 32.0 then Orange
      else Green
  }

  /** A hotter reading never gets a less alarming colour. */
  lemma MarkerColorMonotone(a: real, b: real)
    requires a <= b
    ensures MarkerColor(Num(a)).Severity() <= MarkerColor(Num(b)).Severity()
  {
  }

  /** Digits followed by the degree suffix lose exactly the suffix. */
  lemma StripDegrees(d: string)
    requires AllDigits(d)
    ensures RemoveFirst(d + DegreesCelsius, DegreesCelsius) == d
  {
    var s := d + DegreesCelsius;
    forall i | 0 <= i < |d|
      ensures !OccursAt(s, DegreesCelsius, i)
    {
      assert s[i] == d[i] && IsDigit(d[i]);
      assert i + 2 <= |s| ==> s[i..i + 2][0] == s[i];
    }
    assert s[|d|..|d| + 2] == DegreesCelsius;
    RemoveFirstAt(s, DegreesCelsius, |d|);
    assert s[..|d|] == d;
  }

  /** The degree suffix the map's labels carry is removed before parsing. */
  lemma DigitsWithDegrees(d: string)
    requires AllDigits(d)
    ensures MarkerTemperature(Str(d + DegreesCelsius)) == ParseFloat(d)
  {
    StripDegrees(d);
  }

  /** "34°C" is read as 34. */
  lemma DegreeTextIsParsed(n: nat)
    ensures MarkerTemperature(Str(NatText(n) + DegreesCelsius)) == Some(n as real)
  {
    var d := NatText(n);
    NatTextDigits(n);
    DigitsWithDegrees(d);
    ParseFloatNatText(n, "");
    assert d + "" == d;
  }

  /** The colours of labelled readings follow the thresholds: "36°C" is red,
      "33°C" orange and "30°C" green. */
  lemma LabelledReadings()
    ensures MarkerColor(Str(NatText(36) + DegreesCelsius)) == Red
    ensures MarkerColor(Str(NatText(33) + DegreesCelsius)) == Orange
    ensures MarkerColor(Str(NatText(30) + DegreesCelsius)) == Green
  {
    DegreeTextIsParsed(36);
    DegreeTextIsParsed(33);
    DegreeTextIsParsed(30);
  }
}

=== FILE: options.dfy ===
/** An optional value: JavaScript's `null`, NaN or a missing array element. */
module Options {

  datatype Option<T> = None | Some(value: T)

}

=== FILE: schema.dfy ===
/**
  The persisted rows of the telemetry backend and the database that holds
  them. Every table is an append-only sequence; a row's AUTO_INCREMENT id
  is its position plus one. A column holds the JavaScript value bound to
  it, except that mysql2 writes an `undefined` parameter as NULL.
 */
module Schema {
  import opened Js

  /** The request body a sensor posts, and the object the standalone alert
      evaluator receives: one JavaScript value per field. */
  datatype SensorPayload = SensorPayload(
    sensorId: Value,
    mq2Analog: Value,
    methanePpm: Value,
    co2Density: Value,
    carbonLevel: Value,
    humidity: Value,
    temperatureC: Value,
    temperatureF: Value,
    heatIndexC: Value,
    heatIndexF: Value)

  /** A row of `sensor_data`. `recordedAt` is the insert time the database
      stamps on it. */
  datatype Reading = Reading(
    dataId: nat,
    sensorId: Value,
    mq2Analog: Value,
    methanePpm: Value,
    co2Density: Value,
    carbonLevel: string,
    humidity: Value,
    temperatureC: Value,
    temperatureF: Value,
    heatIndexC: Value,
    heatIndexF: Value,
    recordedAt: int)

  /** The `type` column of an alert, stored as the texts "Carbon Level",
      "High Temperature", "Heat Index" and "Methane". */
  datatype AlertKind = CarbonLevel | HighTemperature | HeatIndex | Methane {
    /** The position of the kind's rule among the rules the controllers
        evaluate; alerts are written in this order. */
    function Rank(): nat {
      match this
      case CarbonLevel => 0
      case HighTemperature => 1
      case HeatIndex => 2
      case Methane => 3
    }
  }

  /** A query parameter as mysql2 binds it: `undefined` becomes NULL and
      every other value is written as it is. */
  function Bound(v: Value): (c: Value)
    ensures c != Undefined
    ensures v != Undefined ==> c == v
  {
    if v == Undefined then Null else v
  }

  /** A row of `alerts`, pointing at the reading `dataId`. */
  datatype Alert = Alert(dataId: nat, sensorId: Value, kind: AlertKind, value: Value, level: Value)

  /** The family-specific columns of a weekly report. */
  datatype Metrics =
    | TemperatureMetrics(avgTemperatureC: Value, minTemperatureC: Value, maxTemperatureC: Value, changeVsLastWeek: Value)
    | CarbonMetrics(avgCo2Density: Value, totalCo2Tons: Value, changeVsLastWeek: Value)

  /** A row of `weekly_temperature_reports` or `weekly_carbon_reports`.
      Week bounds are DATE columns, held as day numbers. */
  datatype ReportRow = ReportRow(
    reportId: nat,
    scope: Value,
    scopeId: Value,
    weekStart: int,
    weekEnd: int,
    metrics: Metrics)

  datatype Db = Db(
    readings: seq<Reading>,
    alerts: seq<Alert>,
    temperatureReports: seq<ReportRow>,
    carbonReports: seq<ReportRow>)

  function RecordedAt(r: Reading): int { r.recordedAt }

  function WeekStart(r: ReportRow): int { r.weekStart }

  /** AUTO_INCREMENT ids are 1, 2, 3, … in insertion order. */
  ghost predicate NumberedReports(t: seq<ReportRow>) {
    forall i :: 0 <= i < |t| ==> t[i].reportId == i + 1
  }

  /** The database's integrity: ids follow insertion order and every alert
      points at a stored reading. */
  ghost predicate Consistent(db: Db) {
    && (forall i :: 0 <= i < |db.readings| ==> db.readings[i].dataId == i + 1)
    && (forall a :: a in db.alerts ==> 1 <= a.dataId <= |db.readings|)
    && NumberedReports(db.temperatureReports)
    && NumberedReports(db.carbonReports)
  }

  /** SQL `column = ?` between a stored value and a bound parameter: NULL
      equals nothing, two strings compare as text, and otherwise both sides
      are compared as numbers. */
  predicate SqlEquals(a: Value, b: Value) {
    if a.Undefined? || a.Null? || b.Undefined? || b.Null? then false
    else if a.Str? && b.Str? then a.s == b.s
    else ToNumber(a).Some? && ToNumber(a) == ToNumber(b)
  }
}

=== FILE: sensor_data.dfy ===
/**
  The sensor-data controller: `POST /sensor-data` stores a reading and
  raises its alerts inline; the two GET handlers list a sensor's readings
  newest first and pick the newest one.
 */
module SensorData {
  import opened Options
  import opened Js
  import opened Schema
  import Sequences

  /** What the handler answers. `Unanswered` is a rejected handler promise:
      `toUpperCase` threw before the `try`, and under Express 4 no response
      is written. */
  datatype Response = Created(dataId: nat) | BadRequest | ServerError | Unanswered

  datatype Handled = Handled(db: Db, response: Response)

  // ---------------------------------------------------------------------
  // Normalisation, validation and the stored row
  // ---------------------------------------------------------------------

  /** `carbon_level.toUpperCase()` runs only on a truthy level, and throws
      unless that level is a string. */
  predicate LevelThrows(p: SensorPayload) {
    Truthy(p.carbonLevel) && !p.carbonLevel.Str?
  }

  /** The carbon level after the normalising step; a falsy level is kept. */
  function NormalisedLevel(p: SensorPayload): (level: Value)
    requires !LevelThrows(p)
    ensures Truthy(level) <==> Truthy(p.carbonLevel)
    ensures Truthy(level) ==> level == Str(ToUpper(p.carbonLevel.s))
    ensures !Truthy(level) ==> level == p.carbonLevel
  {
    if Truthy(p.carbonLevel) then Str(ToUpper(p.carbonLevel.s)) else p.carbonLevel
  }

  /** The 400 condition: a falsy `sensor_id`, or an absent `mq2_analog`,
      `temperature_c` or `humidity` (a present 0 or null passes). */
  predicate MissingRequired(p: SensorPayload) {
    !Truthy(p.sensorId) || p.mq2Analog == Undefined || p.temperatureC == Undefined || p.humidity == Undefined
  }

  /** The value bound to the `carbon_level` column: `carbon_level || 'NORMAL'`. */
  function LevelColumn(level: Value): string {
    if Truthy(level) && level.Str? then level.s else "NORMAL"
  }

  /** The row the INSERT writes: optional columns are `value || null`. */
  function StoredReading(p: SensorPayload, level: Value, id: nat, now: int): Reading {
    Reading(
      id, p.sensorId, p.mq2Analog,
      Or(p.methanePpm, Null), Or(p.co2Density, Null),
      LevelColumn(level),
      p.humidity, p.temperatureC,
      Or(p.temperatureF, Null), Or(p.heatIndexC, Null), Or(p.heatIndexF, Null),
      now)
  }

  // ---------------------------------------------------------------------
  // The inline alert rules
  // ---------------------------------------------------------------------

  predicate CarbonAlertDue(level: Value) {
    level == Str("HIGH") || level == Str("VERY HIGH")
  }

  predicate TemperatureAlertDue(p: SensorPayload) {
    AtLeast(p.temperatureC, 35.0)
  }

  /** The alerts the handler inserts after the reading `id`. */
  function InlineAlerts(level: Value, p: SensorPayload, id: nat): (r: seq<Alert>)
    ensures (exists a :: a in r && a.kind == CarbonLevel) <==> CarbonAlertDue(level)
    ensures (exists a :: a in r && a.kind == HighTemperature) <==> TemperatureAlertDue(p)
    ensures forall a :: a in r ==> a.kind == CarbonLevel || a.kind == HighTemperature
    ensures forall a :: a in r ==> a.dataId == id && a.sensorId == p.sensorId
    ensures forall a :: a in r && a.kind == CarbonLevel ==> a.value == Null && a.level == level
    ensures forall a :: a in r && a.kind == HighTemperature ==> a.value == p.temperatureC && a.level == Str("HIGH")
    ensures forall i, j :: 0 <= i < j < |r| ==> r[i].kind.Rank() < r[j].kind.Rank()
    ensures |r| <= 2
  {
    (if CarbonAlertDue(level) then [Alert(id, p.sensorId, CarbonLevel, Null, level)] else [])
    + (if TemperatureAlertDue(p) then [Alert(id, p.sensorId, HighTemperature, p.temperatureC, Str("HIGH"))] else [])
  }

  // ---------------------------------------------------------------------
  // The handler
  // ---------------------------------------------------------------------

  /** How many of `n` alert inserts succeed when the write numbered `fault`
      fails; write 0 is the reading, write k the k-th alert. */
  function AlertsWritten(n: nat, fault: Option<nat>): (k: nat)
    ensures k <= n
    ensures k < n <==> fault.Some? && 1 <= fault.value <= n
  {
    if fault.Some? && 1 <= fault.value <= n then fault.value - 1 else n
  }

  /** `postSensorData` on the database `db`. `now` is the database clock and
      `fault`, when present, numbers the one write that fails. */
  function Ingest(db: Db, p: SensorPayload, now: int, fault: Option<nat>): (h: Handled)
    ensures h.db.temperatureReports == db.temperatureReports
    ensures h.db.carbonReports == db.carbonReports
    ensures db.readings <= h.db.readings && db.alerts <= h.db.alerts
    ensures h.response.Unanswered? <==> LevelThrows(p)
    ensures h.response.BadRequest? <==> !LevelThrows(p) && MissingRequired(p)
    ensures |h.db.readings| == |db.readings| + 1 <==>
              !LevelThrows(p) && !MissingRequired(p) && fault != Some(0)
    ensures |h.db.readings| <= |db.readings| + 1
    ensures |h.db.readings| == |db.readings| ==> h.db == db && !h.response.Created?
    ensures h.response.BadRequest? || h.response.Unanswered? ==> h.db == db
    ensures h.response.Created? <==>
              && !LevelThrows(p) && !MissingRequired(p)
              && (fault.None? || fault.value > |InlineAlerts(NormalisedLevel(p), p, |db.readings| + 1)|)
    ensures |h.db.readings| == |db.readings| + 1 ==>
              var r := h.db.readings[|db.readings|];
              && r.dataId == |db.readings| + 1
              && r.recordedAt == now
              && r.carbonLevel == (if Truthy(p.carbonLevel) then ToUpper(p.carbonLevel.s) else "NORMAL")
              && (r.sensorId, r.mq2Analog, r.humidity, r.temperatureC)
                 == (p.sensorId, p.mq2Analog, p.humidity, p.temperatureC)
              && (forall a :: a in h.db.alerts[|db.alerts|..] ==> a.dataId == r.dataId && a.sensorId == p.sensorId)
              && (h.response.Created? || h.response.ServerError?)
    ensures h.response.Created? ==>
              && h.response.dataId == |db.readings| + 1
              && h.db.alerts == db.alerts + InlineAlerts(NormalisedLevel(p), p, h.response.dataId)
  {
    if LevelThrows(p) then Handled(db, Unanswered)
    else if MissingRequired(p) then Handled(db, BadRequest)
    else if fault == Some(0) then Handled(db, ServerError)
    else
      var level := NormalisedLevel(p);
      var id := |db.readings| + 1;
      var planned := InlineAlerts(level, p, id);
      var k := AlertsWritten(|planned|, fault);
      var db' := db.(readings := db.readings + [StoredReading(p, level, id, now)],
                     alerts := db.alerts + planned[..k]);
      assert db'.alerts[|db.alerts|..] == planned[..k];
      Handled(db', if k < |planned| then ServerError else Created(id))
  }

  // ---------------------------------------------------------------------
  // The GET handlers
  // ---------------------------------------------------------------------

  /** `SELECT * FROM sensor_data WHERE sensor_id = ? ORDER BY recorded_at DESC`. */
  function ReadingsOf(db: Db, sensorId: Value): (rs: seq<Reading>)
    ensures forall r :: r in rs <==> r in db.readings && SqlEquals(r.sensorId, sensorId)
    ensures multiset(rs) <= multiset(db.readings)
    ensures Sequences.SortedDesc(rs, RecordedAt)
  {
    Sequences.SortDesc(Sequences.Filter(db.readings, (r: Reading) => SqlEquals(r.sensorId, sensorId)), RecordedAt)
  }

  datatype Latest = NoData | Found(reading: Reading)

  /** `getLatestSensorData`: the same query with `LIMIT 1`, and 404 (`NoData`)
      when it returns nothing. */
  function LatestReading(db: Db, sensorId: Value): (l: Latest)
    ensures l.NoData? <==> forall r :: r in db.readings ==> !SqlEquals(r.sensorId, sensorId)
    ensures l.Found? ==>
              && l.reading in db.readings
              && SqlEquals(l.reading.sensorId, sensorId)
              && (forall r :: r in db.readings && SqlEquals(r.sensorId, sensorId) ==> r.recordedAt <= l.reading.recordedAt)
    ensures l.Found? ==> l.reading == ReadingsOf(db, sensorId)[0]
  {
    var rows := ReadingsOf(db, sensorId);
    if |rows| == 0 then NoData
    else
      forall r | r in db.readings && SqlEquals(r.sensorId, sensorId)
        ensures r.recordedAt <= rows[0].recordedAt
      {
        Sequences.FirstIsGreatest(rows, RecordedAt, r);
      }
      Found(rows[0])
  }

  // ---------------------------------------------------------------------
  // Properties of ingestion
  // ---------------------------------------------------------------------

  /** Appending the next reading and alerts that point at it keeps the
      database consistent. */
  lemma AppendKeepsConsistent(db: Db, r: Reading, added: seq<Alert>)
    requires Consistent(db)
    requires r.dataId == |db.readings| + 1
    requires forall a :: a in added ==> a.dataId == r.dataId
    ensures Consistent(db.(readings := db.readings + [r], alerts := db.alerts + added))
  {
  }

  /** Ingestion keeps ids in insertion order and every alert pointing at a
      stored reading, whichever write fails. */
  lemma IngestKeepsConsistent(db: Db, p: SensorPayload, now: int, fault: Option<nat>)
    requires Consistent(db)
    ensures Consistent(Ingest(db, p, now, fault).db)
  {
    if !LevelThrows(p) && !MissingRequired(p) && fault != Some(0) {
      var level := NormalisedLevel(p);
      var id := |db.readings| + 1;
      var planned := InlineAlerts(level, p, id);
      var k := AlertsWritten(|planned|, fault);
      assert forall a :: a in planned[..k] ==> a in planned;
      AppendKeepsConsistent(db, StoredReading(p, level, id, now), planned[..k]);
    }
  }

  /** A stored optional column holds the given value when it is truthy and
      null otherwise (so 0 is stored as null). */
  predicate NullIfFalsy(stored: Value, given: Value) {
    if Truthy(given) then stored == given else stored == Null
  }

  lemma IngestOptionalColumns(db: Db, p: SensorPayload, now: int, fault: Option<nat>)
    requires !LevelThrows(p) && !MissingRequired(p) && fault != Some(0)
    ensures var r := Ingest(db, p, now, fault).db.readings[|db.readings|];
      && NullIfFalsy(r.methanePpm, p.methanePpm)
      && NullIfFalsy(r.co2Density, p.co2Density)
      && NullIfFalsy(r.temperatureF, p.temperatureF)
      && NullIfFalsy(r.heatIndexC, p.heatIndexC)
      && NullIfFalsy(r.heatIndexF, p.heatIndexF)
  {
  }

  /** When the k-th alert insert fails the reading stays stored, the alerts
      before it stay stored, and the answer is 500. */
  lemma AlertFailureKeepsReading(db: Db, p: SensorPayload, now: int, k: nat)
    requires !LevelThrows(p) && !MissingRequired(p)
    requires 1 <= k <= |InlineAlerts(NormalisedLevel(p), p, |db.readings| + 1)|
    ensures var h := Ingest(db, p, now, Some(k));
      && h.response == ServerError
      && |h.db.readings| == |db.readings| + 1
      && h.db.alerts == db.alerts + InlineAlerts(NormalisedLevel(p), p, |db.readings| + 1)[..k - 1]
  {
  }

  /** A reading at 0 for each required measurement is accepted. */
  lemma ZeroMeasurementsAccepted(db: Db, p: SensorPayload, now: int)
    requires Truthy(p.sensorId) && !LevelThrows(p)
    requires p.mq2Analog == Num(0.0) && p.temperatureC == Num(0.0) && p.humidity == Num(0.0)
    ensures Ingest(db, p, now, None).response == Created(|db.readings| + 1)
  {
  }

  /** Inline alerts never reach VERY HIGH for temperature: 42 °C is a HIGH
      "High Temperature" alert, and the only alert when the level is NORMAL. */
  lemma InlineTemperatureIsAlwaysHigh(p: SensorPayload, id: nat)
    requires p.temperatureC == Num(42.0)
    ensures InlineAlerts(Str("NORMAL"), p, id) == [Alert(id, p.sensorId, HighTemperature, Num(42.0), Str("HIGH"))]
  {
  }

  /** The payload of the ingest scenario below. */
  function HotReading(): SensorPayload {
    SensorPayload(Num(1.0), Num(300.0), Num(250.0), Num(900.0), Str("high"),
                  Num(80.0), Num(36.0), Undefined, Undefined, Undefined)
  }

  lemma HotReadingAlerts(id: nat)
    ensures NormalisedLevel(HotReading()) == Str("HIGH")
    ensures InlineAlerts(Str("HIGH"), HotReading(), id)
         == [Alert(id, Num(1.0), CarbonLevel, Null, Str("HIGH")), Alert(id, Num(1.0), HighTemperature, Num(36.0), Str("HIGH"))]
  {
    assert ToUpper("high") == "HIGH";
  }

  /** The ingest scenario of a "high" carbon reading at 36 °C with 250 ppm of
      methane: the reading is stored with level HIGH and exactly two alerts
      follow it, carbon first; methane raises none here. */
  lemma HighCarbonHotReadingScenario(db: Db, now: int)
    ensures var id := |db.readings| + 1;
      var h := Ingest(db, HotReading(), now, None);
      && h.response == Created(id)
      && h.db.readings == db.readings + [Reading(id, Num(1.0), Num(300.0), Num(250.0), Num(900.0), "HIGH",
                                                 Num(80.0), Num(36.0), Null, Null, Null, now)]
      && h.db.alerts == db.alerts + [Alert(id, Num(1.0), CarbonLevel, Null, Str("HIGH")),
                                     Alert(id, Num(1.0), HighTemperature, Num(36.0), Str("HIGH"))]
  {
    var id := |db.readings| + 1;
    HotReadingAlerts(id);
    var planned := InlineAlerts(Str("HIGH"), HotReading(), id);
    assert planned[..|planned|] == planned;
  }
}

=== FILE: sequences.dfy ===
/**
  The sequence operations behind the controllers' SQL and the screens'
  array methods: `WHERE` / `Array.prototype.filter`, `ORDER BY … DESC`
  and `SELECT DISTINCT`.
 */
module Sequences {

  // ---------------------------------------------------------------------
  // Filtering
  // ---------------------------------------------------------------------

  /** The elements of `s` satisfying `p`, in their original order. */
  function Filter<T(==,!new)>(s: seq<T>, p: T -> bool): (r: seq<T>)
    ensures |r| <= |s|
    ensures forall x :: x in r <==> x in s && p(x)
    ensures multiset(r) <= multiset(s)
  {
    if |s| == 0 then []
    else
      assert s == [s[0]] + s[1..];
      if p(s[0]) then [s[0]] + Filter(s[1..], p) else Filter(s[1..], p)
  }

  /** Filtering commutes with concatenation: the kept elements of an earlier
      part precede those of a later part, which is to say the order is kept. */
  lemma {:induction false} FilterConcat<T(!new)>(a: seq<T>, b: seq<T>, p: T -> bool)
    ensures Filter(a + b, p) == Filter(a, p) + Filter(b, p)
  {
    if |a| > 0 {
      assert (a + b)[0] == a[0];
      assert (a + b)[1..] == a[1..] + b;
      FilterConcat(a[1..], b, p);
    } else {
      assert a + b == b;
    }
  }

  /** A predicate that holds of every element keeps the sequence whole. */
  lemma {:induction false} FilterAll<T(!new)>(s: seq<T>, p: T -> bool)
    requires forall i :: 0 <= i < |s| ==> p(s[i])
    ensures Filter(s, p) == s
  {
    if |s| > 0 {
      FilterAll(s[1..], p);
      assert s == [s[0]] + s[1..];
    }
  }

  // ---------------------------------------------------------------------
  // ORDER BY key DESC
  // ---------------------------------------------------------------------

  /** Keys never increase along `s`. */
  ghost predicate SortedDesc<T>(s: seq<T>, key: T -> int) {
    forall i, j :: 0 <= i < j < |s| ==> key(s[i]) >= key(s[j])
  }

  /** An element whose key bounds every key of a key-descending sequence can
      head it. */
  lemma SortedCons<T>(y: T, t: seq<T>, key: T -> int)
    requires SortedDesc(t, key)
    requires forall j :: 0 <= j < |t| ==> key(t[j]) <= key(y)
    ensures SortedDesc([y] + t, key)
  {
    var r := [y] + t;
    forall i, j | 0 <= i < j < |r|
      ensures key(r[i]) >= key(r[j])
    {
      if i > 0 {
        assert r[i] == t[i - 1] && r[j] == t[j - 1];
      } else {
        assert r[j] == t[j - 1];
      }
    }
  }

  /** Places `x` in a key-descending sequence, ahead of the elements whose key
      equals its own. */
  function InsertDesc<T(==,!new)>(x: T, s: seq<T>, key: T -> int): (r: seq<T>)
    requires SortedDesc(s, key)
    ensures SortedDesc(r, key)
    ensures multiset(r) == multiset(s) + multiset{x}
    ensures forall y :: y in r <==> y == x || y in s
    decreases |s|
  {
    if |s| == 0 || key(x) >= key(s[0]) then
      SortedCons(x, s, key);
      [x] + s
    else
      var rest := InsertDesc(x, s[1..], key);
      assert s == [s[0]] + s[1..];
      assert forall j :: 0 <= j < |rest| ==> rest[j] in rest;
      SortedCons(s[0], rest, key);
      [s[0]] + rest
  }

  /** `ORDER BY key DESC`: a key-descending permutation of `s`. */
  function SortDesc<T(==,!new)>(s: seq<T>, key: T -> int): (r: seq<T>)
    ensures SortedDesc(r, key)
    ensures multiset(r) == multiset(s)
    ensures forall x :: x in r <==> x in s
    ensures |r| == |s|
  {
    if |s| == 0 then []
    else
      assert s == [s[0]] + s[1..];
      InsertDesc(s[0], SortDesc(s[1..], key), key)
  }

  /** The first element of a key-descending sequence carries the largest key
      of all its elements. */
  lemma FirstIsGreatest<T>(s: seq<T>, key: T -> int, y: T)
    requires SortedDesc(s, key) && y in s
    ensures key(y) <= key(s[0])
  {
    var j :| 0 <= j < |s| && s[j] == y;
    if j > 0 {
      assert key(s[0]) >= key(s[j]);
    }
  }

  // ---------------------------------------------------------------------
  // SELECT DISTINCT
  // ---------------------------------------------------------------------

  /** Each distinct element of `s` once, at its first occurrence. */
  function Distinct<T(==,!new)>(s: seq<T>): (r: seq<T>)
    ensures forall x :: multiset(r)[x] == if x in s then 1 else 0
  {
    if |s| == 0 then []
    else
      var init := s[..|s| - 1];
      var last := s[|s| - 1];
      var rest := Distinct(init);
      assert s == init + [last];
      assert last in rest <==> last in init;
      if last in rest then rest else rest + [last]
  }

  /** Two equal elements at two positions count twice in the multiset. */
  lemma RepeatCounts<T>(s: seq<T>, i: int, j: int)
    requires 0 <= i < j < |s|
    ensures s[i] == s[j] ==> multiset(s)[s[i]] >= 2
  {
    assert s == s[..i] + [s[i]] + s[i + 1..j] + [s[j]] + s[j + 1..];
  }
}

=== FILE: temperature_reports.dfy ===
/**
  `createWeeklyTemperatureReport`: the temperature family's create handler.
  Its listing, by-scope and weeks handlers are the shared queries of
  `WeeklyReports` applied to `weekly_temperature_reports`.
 */
module TemperatureReports {
  import opened Js
  import opened Schema
  import opened WeeklyReports

  /** The request body. `scope_id` and the min/max/change columns are
      optional. */
  datatype TemperatureBody = TemperatureBody(
    scope: Value,
    scopeId: Value,
    weekStart: DateField,
    weekEnd: DateField,
    avgTemperatureC: Value,
    minTemperatureC: Value,
    maxTemperatureC: Value,
    changeVsLastWeek: Value)

  /** The 400 guard. The average is required only to be present: a null or
      zero average is accepted. */
  predicate Incomplete(b: TemperatureBody) {
    !Truthy(b.scope) || b.weekStart.NoDate? || b.weekEnd.NoDate? || b.avgTemperatureC == Undefined
  }

  /** The create handler; `fails` stands for the insert throwing. */
  function CreateTemperatureReport(db: Db, b: TemperatureBody, fails: bool): (h: CreateOutcome)
    ensures h.db.readings == db.readings && h.db.alerts == db.alerts && h.db.carbonReports == db.carbonReports
    ensures h.response.MissingFields? <==> Incomplete(b)
    ensures h.response.DatabaseError? <==> !Incomplete(b) && fails
    ensures !h.response.ReportCreated? ==> h.db == db
    ensures h.response.ReportCreated? ==>
              var t := h.db.temperatureReports;
              && |t| == |db.temperatureReports| + 1
              && t[..|db.temperatureReports|] == db.temperatureReports
              && h.response.reportId == |t|
              && t[|t| - 1].reportId == h.response.reportId
              && t[|t| - 1].scope == b.scope
              && (t[|t| - 1].scopeId == if Truthy(b.scopeId) then b.scopeId else Null)
              && t[|t| - 1].weekStart == b.weekStart.day
              && t[|t| - 1].weekEnd == b.weekEnd.day
              && t[|t| - 1].metrics == TemperatureMetrics(b.avgTemperatureC, Bound(b.minTemperatureC), Bound(b.maxTemperatureC), Bound(b.changeVsLastWeek))
  {
    if Incomplete(b) then CreateOutcome(db, MissingFields)
    else if fails then CreateOutcome(db, DatabaseError)
    else
      var m := TemperatureMetrics(b.avgTemperatureC, Bound(b.minTemperatureC), Bound(b.maxTemperatureC), Bound(b.changeVsLastWeek));
      var t := AppendReport(db.temperatureReports, b.scope, ScopeIdParam(b.scopeId), b.weekStart.day, b.weekEnd.day, m);
      CreateOutcome(db.(temperatureReports := t), ReportCreated(|t|))
  }

  /** A create request keeps the database consistent. */
  lemma CreateKeepsConsistent(db: Db, b: TemperatureBody, fails: bool)
    requires Consistent(db)
    ensures Consistent(CreateTemperatureReport(db, b, fails).db)
  {
  }

  /** A created report is found again by the by-scope query for the scope
      and scope id it was created with, and its week is listed. */
  lemma CreatedReportIsListed(db: Db, b: TemperatureBody)
    requires CreateTemperatureReport(db, b, false).response.ReportCreated?
    ensures var t := CreateTemperatureReport(db, b, false).db.temperatureReports;
      && t[|t| - 1] in ReportsByScope(t, b.scope, b.scopeId).rows
      && (b.weekStart.day, b.weekEnd.day) in ReportWeeks(t)
  {
    AppendedRowIsListed(db.temperatureReports, b.scope, b.scopeId, b.weekStart.day, b.weekEnd.day, TemperatureMetrics(b.avgTemperatureC, Bound(b.minTemperatureC), Bound(b.maxTemperatureC), Bound(b.changeVsLastWeek)));
  }

  /** The optional columns a request leaves out are stored as NULL. */
  lemma OmittedColumnsStoredAsNull(db: Db, scope: Value, ws: int, we: int, avg: Value)
    requires Truthy(scope) && avg != Undefined
    ensures var h := CreateTemperatureReport(db, TemperatureBody(scope, Undefined, Day(ws), Day(we), avg, Undefined, Undefined, Undefined), false);
      && h.response.ReportCreated?
      && h.db.temperatureReports[|db.temperatureReports|] == ReportRow(|db.temperatureReports| + 1, scope, Null, ws, we, TemperatureMetrics(avg, Null, Null, Null))
  {
  }

  /** Only a missing average is refused: zero and null are stored. */
  lemma AverageNeedOnlyBePresent(db: Db, b: TemperatureBody)
    requires Truthy(b.scope) && b.weekStart.Day? && b.weekEnd.Day?
    ensures CreateTemperatureReport(db, b, false).response.ReportCreated? <==> b.avgTemperatureC != Undefined
  {
  }
}

=== FILE: weather.dfy ===
/**
  The weekly prediction handler: a barangay's daily forecast from the
  weather service, each day classified by a first-match-wins rule table,
  or a seven-day placeholder when the service gives nothing usable.
 */
module Weather {
  import opened Options
  import opened Js
  import opened Schema
  import Sequences

  /** The `predicted_carbon_density` of a forecast day, sent as the texts
      "VERY HIGH", "HIGH", "LOW", "NORMAL" and "UNKNOWN". */
  datatype Level = VeryHigh | High | Low | Normal | Unknown

  /** How strongly a prediction points at carbon build-up: LOW < NORMAL <
      HIGH < VERY HIGH. */
  function Severity(l: Level): int {
    match l
    case Low => 0
    case Normal => 1
    case High => 2
    case VeryHigh => 3
    case Unknown => -1
  }

  /** The rule table for one day, first match wins; a missing (null) input
      leaves the day NORMAL. */
  function PredictDay(tempMax: Option<real>, rain: Option<real>, wind: Option<real>): (l: Level)
    ensures l != Unknown
    ensures tempMax.None? || rain.None? || wind.None? ==> l == Normal
  {
    if tempMax.None? || rain.None? || wind.None? then Normal
    else
      var t, r, w := tempMax.value, rain.value, wind.value;
      if t >= 35.0 && r < 20.0 && w < 3.0 then VeryHigh
      else if t >= 32.0 && r < 40.0 then High
      else if r >= 60.0 || w >= 6.0 then Low
      else Normal
  }

  /** An independent reading of the table, one level at a time: each level
      is reached exactly when its own rule matches and no earlier rule does. */
  lemma PredictDayRules(t: real, r: real, w: real)
    ensures PredictDay(Some(t), Some(r), Some(w)) == VeryHigh <==> t >= 35.0 && r < 20.0 && w < 3.0
    ensures PredictDay(Some(t), Some(r), Some(w)) == High <==>
              !(t >= 35.0 && r < 20.0 && w < 3.0) && t >= 32.0 && r < 40.0
    ensures PredictDay(Some(t), Some(r), Some(w)) == Low <==>
              !(t >= 35.0 && r < 20.0 && w < 3.0) && !(t >= 32.0 && r < 40.0) && (r >= 60.0 || w >= 6.0)
  {
  }

  /** Hotter, drier and calmer days never get a lower prediction: the table
      is monotone although its rules overlap. */
  lemma PredictDayMonotone(t1: real, r1: real, w1: real, t2: real, r2: real, w2: real)
    requires t1 <= t2 && r1 >= r2 && w1 >= w2
    ensures Severity(PredictDay(Some(t1), Some(r1), Some(w1))) <= Severity(PredictDay(Some(t2), Some(r2), Some(w2)))
  {
  }

  /** Where rules overlap the earlier one decides: a hot, dry but windy day
      matches both the HIGH and the LOW rule and is HIGH. */
  lemma FirstMatchWins()
    ensures PredictDay(Some(36.0), Some(10.0), Some(7.0)) == High
  {
  }

  // ---------------------------------------------------------------------
  // The forecast
  // ---------------------------------------------------------------------

  /** The `daily` object of the weather service's answer. Each column may be
      missing, and each entry may be null. */
  datatype Daily = Daily(
    time: Option<seq<string>>,
    temperatureMax: Option<seq<Option<real>>>,
    temperatureMin: Option<seq<Option<real>>>,
    precipitationProbabilityMax: Option<seq<Option<real>>>,
    windSpeedMax: Option<seq<Option<real>>>)

  /** The outcome of the weather request: an error, or a body whose `daily`
      may be missing. */
  datatype Reply = RequestFailed | Body(daily: Option<Daily>)

  /** The date of a forecast day: the service's date text, or, for the
      placeholder, today plus an offset in days. */
  datatype DayLabel = ServiceDate(text: string) | DaysFromToday(offset: nat)

  datatype ForecastDay = ForecastDay(
    date: DayLabel,
    tempMax: Option<real>,
    tempMin: Option<real>,
    rainProbability: Option<real>,
    windSpeed: Option<real>,
    predicted: Level)

  /** `column?.[i] ?? null`. */
  function At(column: Option<seq<Option<real>>>, i: nat): Option<real> {
    if column.Some? && i < |column.value| then column.value[i] else None
  }

  /** `data.daily && data.daily.time`: the series the forecast is built from.
      An array is truthy even when empty. */
  function Usable(reply: Reply): Option<Daily> {
    if reply.Body? && reply.daily.Some? && reply.daily.value.time.Some? then reply.daily else None
  }

  function ServiceDay(daily: Daily, dates: seq<string>, i: nat): ForecastDay
    requires i < |dates|
  {
    var tMax := At(daily.temperatureMax, i);
    var rain := At(daily.precipitationProbabilityMax, i);
    var wind := At(daily.windSpeedMax, i);
    ForecastDay(ServiceDate(dates[i]), tMax, At(daily.temperatureMin, i), rain, wind, PredictDay(tMax, rain, wind))
  }

  const PlaceholderDays: nat := 7

  /** The forecast the handler returns for a weather reply. */
  function Forecast(reply: Reply): (f: seq<ForecastDay>)
    ensures Usable(reply).Some? ==>
              var daily := Usable(reply).value;
              && |f| == |daily.time.value|
              && forall i :: 0 <= i < |f| ==>
                   && f[i].date == ServiceDate(daily.time.value[i])
                   && f[i].tempMax == At(daily.temperatureMax, i)
                   && f[i].tempMin == At(daily.temperatureMin, i)
                   && f[i].rainProbability == At(daily.precipitationProbabilityMax, i)
                   && f[i].windSpeed == At(daily.windSpeedMax, i)
                   && f[i].predicted == PredictDay(f[i].tempMax, f[i].rainProbability, f[i].windSpeed)
    ensures Usable(reply).None? ==>
              && |f| == PlaceholderDays
              && forall i :: 0 <= i < |f| ==> f[i] == ForecastDay(DaysFromToday(i), None, None, None, None, Unknown)
  {
    match Usable(reply)
    case Some(daily) =>
      var dates := daily.time.value;
      seq(|dates|, i requires 0 <= i < |dates| => ServiceDay(daily, dates, i))
    case None =>
      seq(PlaceholderDays, i requires 0 <= i < PlaceholderDays => ForecastDay(DaysFromToday(i), None, None, None, None, Unknown))
  }

  /** UNKNOWN appears only in the placeholder: a day built from service data
      always carries one of the four rule-table levels. */
  lemma UnknownOnlyInPlaceholder(reply: Reply, i: nat)
    requires i < |Forecast(reply)|
    ensures Forecast(reply)[i].predicted == Unknown <==> Usable(reply).None?
  {
  }

  // ---------------------------------------------------------------------
  // The handler
  // ---------------------------------------------------------------------

  /** A row of `barangays` as the handler reads it. */
  datatype Barangay = Barangay(barangayId: Value, name: string, latitude: real, longitude: real)

  datatype PredictionResponse =
    | BarangayNotFound
    | Prediction(barangayId: Value, barangayName: string, forecastDays: nat, forecast: seq<ForecastDay>)

  /** `getWeeklyPrediction` for the route parameter `barangayId`. `reply`
      stands for the weather request, which is made only once the barangay
      is found. */
  function WeeklyPrediction(barangays: seq<Barangay>, barangayId: Value, reply: Reply): (r: PredictionResponse)
    ensures r.BarangayNotFound? <==> forall b :: b in barangays ==> !SqlEquals(b.barangayId, barangayId)
    ensures r.Prediction? ==>
              && r.barangayId == barangayId
              && r.forecastDays == |r.forecast|
              && r.forecast == Forecast(reply)
              && exists b :: b in barangays && SqlEquals(b.barangayId, barangayId) && b.name == r.barangayName
  {
    // SELECT name, latitude, longitude FROM barangays WHERE barangay_id = ?
    var rows := Sequences.Filter(barangays, (b: Barangay) => SqlEquals(b.barangayId, barangayId));
    if |rows| == 0 then BarangayNotFound
    else
      var found := rows[0];
      assert found in rows;
      var f := Forecast(reply);
      Prediction(barangayId, found.name, |f|, f)
  }

  /** Whatever the weather service does, an unknown barangay is a 404. */
  lemma NotFoundIgnoresService(barangays: seq<Barangay>, barangayId: Value, reply1: Reply, reply2: Reply)
    ensures WeeklyPrediction(barangays, barangayId, reply1).BarangayNotFound?
        <==> WeeklyPrediction(barangays, barangayId, reply2).BarangayNotFound?
  {
  }

  /** A failed weather request yields seven UNKNOWN days with null metrics. */
  lemma FailedRequestGivesPlaceholder(barangays: seq<Barangay>, barangayId: Value)
    requires exists b :: b in barangays && SqlEquals(b.barangayId, barangayId)
    ensures var r := WeeklyPrediction(barangays, barangayId, RequestFailed);
      && r.Prediction?
      && r.forecastDays == 7
      && forall i :: 0 <= i < 7 ==> r.forecast[i] == ForecastDay(DaysFromToday(i), None, None, None, None, Unknown)
  {
  }
}

=== FILE: weekly_reports.dfy ===
/**
  The queries the two weekly-report controllers share, written once: the
  list ordered by `week_start DESC`, the by-scope filter
  `scope = ? AND (? IS NULL OR scope_id = ?)`, and the distinct weeks.
 */
module WeeklyReports {
  import opened Js
  import opened Schema
  import Sequences

  /** A week bound in a create body: absent (any falsy value) or a date,
      held as a day number. */
  datatype DateField = NoDate | Day(day: int)

  /** `SELECT * … ORDER BY week_start DESC`. */
  function AllReports(table: seq<ReportRow>): (rows: seq<ReportRow>)
    ensures multiset(rows) == multiset(table)
    ensures Sequences.SortedDesc(rows, WeekStart)
  {
    Sequences.SortDesc(table, WeekStart)
  }

  datatype ListResponse = ScopeRequired | Rows(rows: seq<ReportRow>)

  /** The parameter bound to both `?` of `(? IS NULL OR scope_id = ?)`:
      `scope_id || null`. */
  function ScopeIdParam(scopeId: Value): Value {
    Or(scopeId, Null)
  }

  predicate InScope(row: ReportRow, scope: Value, scopeId: Value) {
    var param := ScopeIdParam(scopeId);
    SqlEquals(row.scope, scope) && (param == Null || SqlEquals(row.scopeId, param))
  }

  /** The by-scope handler for the query parameters `scope` and `scope_id`. */
  function ReportsByScope(table: seq<ReportRow>, scope: Value, scopeId: Value): (r: ListResponse)
    ensures r.ScopeRequired? <==> !Truthy(scope)
    ensures r.Rows? ==>
              && (forall row :: row in r.rows <==>
                    row in table && SqlEquals(row.scope, scope) && (!Truthy(scopeId) || SqlEquals(row.scopeId, scopeId)))
              && multiset(r.rows) <= multiset(table)
              && Sequences.SortedDesc(r.rows, WeekStart)
  {
    if !Truthy(scope) then ScopeRequired
    else Rows(Sequences.SortDesc(Sequences.Filter(table, (row: ReportRow) => InScope(row, scope, scopeId)), WeekStart))
  }

  /** With a falsy `scope_id` the filter keeps every row of the scope; a row
      whose own `scope_id` is null is found only that way. */
  lemma NullScopeRowsOnlyUnfiltered(table: seq<ReportRow>, scope: Value, scopeId: Value, row: ReportRow)
    requires Truthy(scope) && row in table && row.scopeId == Null && SqlEquals(row.scope, scope)
    ensures row in ReportsByScope(table, scope, scopeId).rows <==> !Truthy(scopeId)
  {
  }

  /** The (week_start, week_end) pair of each row, in table order. */
  function WeekPairs(table: seq<ReportRow>): (ws: seq<(int, int)>)
    ensures |ws| == |table|
    ensures forall i :: 0 <= i < |table| ==> ws[i] == (table[i].weekStart, table[i].weekEnd)
  {
    seq(|table|, i requires 0 <= i < |table| => (table[i].weekStart, table[i].weekEnd))
  }

  function First(w: (int, int)): int { w.0 }

  /** `SELECT DISTINCT week_start, week_end … ORDER BY week_start DESC`. */
  function ReportWeeks(table: seq<ReportRow>): (ws: seq<(int, int)>)
    ensures forall w :: multiset(ws)[w] == if exists row :: row in table && (row.weekStart, row.weekEnd) == w then 1 else 0
    ensures Sequences.SortedDesc(ws, First)
  {
    var pairs := WeekPairs(table);
    var ws := Sequences.SortDesc(Sequences.Distinct(pairs), First);
    forall w
      ensures w in pairs <==> exists row :: row in table && (row.weekStart, row.weekEnd) == w
    {
      if w in pairs {
        var i :| 0 <= i < |pairs| && pairs[i] == w;
        assert table[i] in table;
      }
      if exists row :: row in table && (row.weekStart, row.weekEnd) == w {
        var row :| row in table && (row.weekStart, row.weekEnd) == w;
        var i :| 0 <= i < |table| && table[i] == row;
        assert pairs[i] == w;
      }
    }
    ws
  }

  /** A week that several reports share is listed once. */
  lemma WeeksAreDistinct(table: seq<ReportRow>, i: int, j: int)
    requires 0 <= i < j < |ReportWeeks(table)|
    ensures ReportWeeks(table)[i] != ReportWeeks(table)[j]
  {
    Sequences.RepeatCounts(ReportWeeks(table), i, j);
  }

  /** A new report is the row appended at the end of the table, with the
      next AUTO_INCREMENT id. */
  function AppendReport(table: seq<ReportRow>, scope: Value, scopeId: Value, weekStart: int, weekEnd: int, m: Metrics): (t: seq<ReportRow>)
    ensures |t| == |table| + 1 && t[..|table|] == table
    ensures NumberedReports(table) ==> NumberedReports(t)
  {
    table + [ReportRow(|table| + 1, scope, scopeId, weekStart, weekEnd, m)]
  }

  /** The row a create appends is found again by the by-scope query for
      the scope and scope id it was created with, and its week is listed. */
  lemma AppendedRowIsListed(table: seq<ReportRow>, scope: Value, scopeId: Value, weekStart: int, weekEnd: int, m: Metrics)
    requires Truthy(scope)
    ensures var t := AppendReport(table, scope, ScopeIdParam(scopeId), weekStart, weekEnd, m);
      && t[|t| - 1] in ReportsByScope(t, scope, scopeId).rows
      && (weekStart, weekEnd) in ReportWeeks(t)
  {
    var t := AppendReport(table, scope, ScopeIdParam(scopeId), weekStart, weekEnd, m);
    var row := t[|t| - 1];
    assert row in t;
    assert SqlEquals(row.scope, scope);
    assert ScopeIdParam(scopeId) == Null || SqlEquals(row.scopeId, scopeId);
    assert multiset(ReportWeeks(t))[(weekStart, weekEnd)] == 1;
  }

  /** The answer to a create request: 201 with the new id, 400, or 500. */
  datatype CreateResponse = ReportCreated(reportId: nat) | MissingFields | DatabaseError

  /** The database after a create request, and the answer. */
  datatype CreateOutcome = CreateOutcome(db: Db, response: CreateResponse)
}
